=== FILE: README.md ===
# Death2Data registry and ledger: a Dafny model

This project models the bookkeeping at the heart of two Death2Data
services:

- `content_registry.py`, the content registry. It covers user signup and
  token lookup, SHA-256 fingerprinting of a file read in 8192-byte chunks,
  and `register_content` with its monthly per-tier quota. It also covers
  lookup by uuid (joined with the owner's email), a user's newest-first
  listing, hash verification of a candidate file, and the JSON
  certificate.
- `d2d.py`, the search-and-save service. It covers the daily usage ledger
  (`log_usage`, `check_limit` against `TIERS`), signup and login,
  bookmarks (`save`, `delete_saved`), content registration (`register`)
  and `delete_all`. It also covers the changelog (`add_version`), feature
  flags, project stars, and the quota gate around the metasearch proxy
  (`search`).

Each SQLite database is an immutable value: `Registry.Registry` for the
registry and `Store.Store` for the service. Every operation is a pure
function from the old value to the new one plus its answer.

SHA-256, the token hash, `uuid4()`, `secrets.token_hex` and the clock are
parameters:

- a function `sha`/`hash`;
- a `uuid` value;
- one `Date` per `datetime.now()` call, so that two reads of the clock
  may fall in different periods.

A file system is a map from path to bytes. An outbound SearXNG request
is a function returning its results or `None` when it raised.

Modules:

| module | file | models |
|---|---|---|
| `Common` | common.dfy | `Option`, `Result`, bytes, calendar dates and their month/day keys |
| `Decimal` | decimal.dfy | decimal rendering of the numbers inside error messages, with its parse-back |
| `Text` | text.dfy | `str.split(",")` and its inverse `join`; `Path.name` |
| `Tables` | tables.dfy | AUTOINCREMENT ids, `fetchone()` without `ORDER BY`, `DELETE ... WHERE` |
| `Fingerprint` | fingerprint.dfy | `hash_file` |
| `Registry` | registry.dfy | the registry's tables and operations |
| `Listing` | listing.dfy | `get_user_content` |
| `Certificate` | certificate.dfy | `generate_certificate_json` |
| `RegistryFacts` | registry_facts.dfy | multi-call properties of the registry: quota, invariants, register-then-read |
| `Ledger` | ledger.dfy | `TIERS`, `log_usage`, `check_limit`, with an event-log reference model |
| `Store` | store.dfy | the service's tables and operations |
| `StoreFacts` | store_facts.dfy | multi-call properties of the service |

The model follows the code where it departs from what its own comments
and schema announce:

- The comment at content_registry.py:175 says automatic registrations are
  not counted against the limit. They do skip the quota check, but they
  still add one to the month's counter, because the usage upsert is not
  guarded by `auto`.
  `RegistryFacts.AutoRegistrationConsumesQuota` shows the consequence:
  automatic registrations use up the explicit quota.
- Both schemas declare foreign keys, and those of `d2d.py` add
  `ON DELETE CASCADE`; Python's `sqlite3` never runs
  `PRAGMA foreign_keys = ON`, so neither is enforced. `delete_all`
  therefore leaves the
  user's usage rows and stars behind. `register_content` accepts a user
  id with no user row; the join in `get_content` then hides that record.
  `star_project` records a star on a project that does not exist.
- `d2d.py` counts every action per calendar day, including saves and
  registrations, whatever the comment over `TIERS` says.
- A limit that is not positive means "unlimited" in the registry, not
  only the sentinel -1.

## Model

| member | source | states |
|---|---|---|
| Tables.FirstKey | content_registry.py:139-146 | `fetchone()` on an unordered scan returns the lowest matching id; `None` exactly when no row in range matches |
| Tables.DeleteWhere | d2d.py:448-454 | a `DELETE ... WHERE` removes exactly the rows matching the condition and leaves every other row unchanged |
| Registry.Empty | content_registry.py:59-115 | the freshly created database satisfies the schema's guarantees |
| Registry.Signup | content_registry.py:126-137 | a taken email is refused with "Email already exists" and changes nothing; otherwise the token is returned and its hash is stored under a fresh id with tier `free`, all other rows kept |
| RegistryFacts.SignupPreservesValid | content_registry.py:126-137 | signup keeps ids within the AUTOINCREMENT range and emails unique |
| Registry.GetUser | content_registry.py:139-146 | an empty token finds nobody; a found user's stored hash is the token's hash and no lower id matches; `None` means no user has that hash |
| RegistryFacts.SignupThenGetUser | content_registry.py:126-146 | the token signup returns logs in as the new user, provided no existing user's stored hash equals its hash |
| Fingerprint.HashFile | content_registry.py:152-158 | the digest is SHA-256 of the whole file; the chunks read are non-empty, at most 8192 bytes each, and concatenate back to the file; a missing file yields no digest |
| Fingerprint.FeedAbsorbs | content_registry.py:155-157 | feeding chunks one by one absorbs exactly their concatenation |
| Fingerprint.ChunkingIrrelevant | content_registry.py:152-158 | any two chunkings of the same bytes give the same digest |
| Fingerprint.Read | content_registry.py:156 | `f.read(n)` returns the next bytes of the file from the current position, exactly `n` of them unless the end of the file comes first |
| Text.BaseName | content_registry.py:201 | `Path.name` is the suffix of the path after its last `/`, containing no `/` |
| Registry.Admission | content_registry.py:163-218 | a missing file is refused with "File not found" before anything else; with the file present, a quota-gate error is returned as is; otherwise the registration is admitted exactly when the gate passes and the uuid is free, and a taken uuid gets the UNIQUE-constraint error |
| Registry.QuotaGate | content_registry.py:175-193 | automatic registrations and user ids with no user row pass; a tier missing from the configuration raises the lookup error; otherwise the registration is refused, with the tier's limit, exactly when that limit is positive and the month's count has reached it |
| Registry.Commit | content_registry.py:195-210 | the insert adds exactly the new record; the upsert adds one to this month's counter and leaves every other counter and the users unchanged |
| Registry.RegisterContent | content_registry.py:160-218 | a missing file fails first with no change; it fails exactly when admission refuses, with admission's error (so a taken uuid returns the UNIQUE-constraint message); every failure leaves the database unchanged; success adds one record built from the file's digest, base name and size, bumps this month's counter by one and changes nothing else |
| RegistryFacts.QuotaRefusal | content_registry.py:175-193 | an explicit registration by a user with a positive limit is refused with that limit exactly when the month's count has reached it |
| RegistryFacts.QuotaSkipped | content_registry.py:175-183 | automatic registrations, unknown user ids and non-positive limits bypass the gate, so the registration succeeds |
| RegistryFacts.UnknownTierRaises | content_registry.py:181 | an explicit registration by a user whose tier is missing from the configuration fails with the tier lookup error |
| RegistryFacts.LimitMessageCarriesLimit | content_registry.py:193 | the refusal message carries the numeric limit in decimal, and it parses back to the limit |
| RegistryFacts.RegisterPreservesValid | content_registry.py:160-218 | registration keeps every record under its own uuid and keeps the user invariants |
| RegistryFacts.RegisterThenLookup | content_registry.py:160-230 | a registration whose file exists, whose uuid is free and which the quota gate lets through succeeds; `get_content` returns the new record with the owner's email when the owner row exists, and nothing when it does not |
| RegistryFacts.RegisterThenVerify | content_registry.py:244-255 | verifying the registered file against the new uuid reports a match; a file with a different digest is reported as modified |
| RegistryFacts.RegisterThenCertificate | content_registry.py:290-309 | the certificate of a new registration reproduces its uuid, digest, name, size, time, owner, license and notes, and its tag list is the comma-split of the tags given |
| RegistryFacts.RunWithinLimit | content_registry.py:175-210 | within the limit, every explicit registration of a run succeeds and the month's count grows by exactly the run's length |
| RegistryFacts.QuotaExhausted | content_registry.py:175-193 | from an empty month, after `L` explicit registrations the next one is refused with limit `L` and changes nothing |
| RegistryFacts.AutoRegistrationConsumesQuota | content_registry.py:173-210 | an automatic registration taken when one explicit registration is left uses it up, so the explicit one is refused |
| Registry.GetContent | content_registry.py:220-230 | a record is found exactly when it exists and its owner row exists; it comes back unchanged with its owner's email |
| Listing.Latest | content_registry.py:236-238 | picks a pending record that no other pending record is newer than |
| Listing.GetUserContent | content_registry.py:232-242 | returns only the user's records, each once, newest first; the count is the limit or all of them when the limit is negative or larger; no omitted record is newer than a returned one |
| Listing.SelectNext | content_registry.py:236-238 | appending the newest pending record keeps the partial listing correct |
| Registry.VerifyContent | content_registry.py:244-255 | an unknown uuid gives "UUID not found"; a missing candidate file is an error; otherwise the verdict is a match exactly when the candidate's digest equals the stored one, with the matching reason |
| Certificate.TagList | content_registry.py:304 | empty tags give an empty list; otherwise comma-free pieces that join back to the tags |
| Certificate.GenerateCertificateJson | content_registry.py:290-309 | a certificate exists exactly when `get_content` finds the record; each field is the matching column, the owner is the joined email, the tags are the comma-split of the stored tags (empty when they are empty), the verify URL ends in the uuid, and the registry name and version are the fixed ones |
| Text.Split | content_registry.py:304 | `split(",")` gives one more piece than there are commas, none of them containing a comma |
| Text.JoinSplit | content_registry.py:304 | joining the pieces of a split with commas gives back the original string |
| Text.SplitJoin | content_registry.py:304 | splitting a comma-join of comma-free pieces gives back the pieces |
| Decimal.ShowNat | d2d.py:160 | `str(n)` of a count is a non-empty string of digits with no leading zero |
| Decimal.ShowInt | content_registry.py:193 | `str(i)` is non-empty and starts with a minus exactly when `i` is negative |
| Decimal.ShowIntReadsBack | content_registry.py:193 | the digits `str(i)` writes, after the minus sign when there is one, parse back to the magnitude of `i` |
| Decimal.ParseShowNat | d2d.py:160 | the decimal rendering of a count parses back to the count |
| Decimal.ShowNatInjective | d2d.py:160 | distinct counts render differently |
| Ledger.LogUsage | d2d.py:135-146 | the (user, action, today) counter becomes one more than before, created at 1 when absent; every other counter is unchanged |
| Ledger.ReplayCounts | d2d.py:135-146 | after a sequence of logged actions, each counter equals its start value plus the number of actions on its user, action and day |
| Ledger.CheckLimit | d2d.py:148-161 | an unknown tier raises; otherwise the action is allowed exactly when today's count is below the tier's limit, and a refusal reports that count and limit |
| Ledger.GateAfterEvents | d2d.py:135-161 | from an empty ledger, the gate allows an action exactly while fewer than the limit of that action were logged that day |
| Ledger.RefusalMessageShowsBoth | d2d.py:160 | the refusal message shows the count and the limit in decimal at fixed positions, and both parse back |
| Store.Empty | d2d.py:49-124 | the freshly created database satisfies the schema's guarantees |
| Store.Signup | d2d.py:261-277 | a new email gets a fresh id with tier `free` and cohort `A`; a known email gets its token hash and customer id overwritten; a missing email changes nothing |
| StoreFacts.SignupPreservesValid | d2d.py:261-277 | signup keeps ids in range and emails unique |
| StoreFacts.SignupReplacesToken | d2d.py:270-277 | signing up again replaces the token: the new one logs the same account in, the old one no longer logs into that account, and no account is added |
| StoreFacts.SignupThenLogin | d2d.py:261-285 | the token a new signup returns logs into the new account |
| Store.Login | d2d.py:279-285 | an empty token finds nobody; a found account's hash is the token's hash and no lower id matches; `None` means no account has it |
| Store.Save | d2d.py:372-385 | the verdict is the saves gate; a refusal changes nothing; an allowed save stores exactly the new bookmark under a fresh id and logs one save |
| StoreFacts.SavePreservesValid | d2d.py:372-385 | saving keeps the bookmark ids in range |
| StoreFacts.SavesWithinLimit | d2d.py:372-385 | within the day's limit, `n` saves all go through and raise the day's save counter by exactly `n` |
| StoreFacts.SaveQuotaExhausted | d2d.py:148-161 | from an empty day, after the tier's limit of saves the next one is refused with that count and limit |
| Store.DeleteSaved | d2d.py:393-397 | removes the bookmark only when the given user owns it; every other row is untouched |
| StoreFacts.DeleteSavedScoped | d2d.py:393-397 | another user's bookmark cannot be deleted; deleting twice equals deleting once |
| StoreFacts.SaveThenDeleteSaved | d2d.py:372-397 | deleting the bookmark a save just stored restores the bookmark table |
| Store.Register | d2d.py:403-418 | a refusal or unknown tier changes nothing; a taken uuid raises and changes nothing; otherwise the uuid is issued, exactly one content row is added with the title/description/time digest, and one registration is logged |
| StoreFacts.RegisterPreservesValid | d2d.py:403-418 | registration keeps every content row under its own uuid |
| StoreFacts.RegisterCountsOnce | d2d.py:403-418 | a registration is issued exactly when today's count is below the limit; it then adds one row and one to the counter, otherwise nothing changes |
| Store.DeleteAll | d2d.py:448-454 | the user's account, bookmarks and content go; everything else, including usage and stars, stays |
| StoreFacts.DeleteAllScoped | d2d.py:448-454 | after `delete_all` the user owns nothing; every other user's data is as before; a second call changes nothing |
| StoreFacts.DeleteAllLogsOut | d2d.py:448-454 | after `delete_all` no token logs in as the deleted user |
| StoreFacts.DeletesPreserveValid | d2d.py:393-454 | both deletes keep the invariants |
| Store.AddVersion | d2d.py:184-193 | a new version is recorded; an existing one is left as it was |
| StoreFacts.AddVersionIdempotent | d2d.py:184-193 | adding a version again, with any details, changes nothing |
| Store.SetFeatureFlag | d2d.py:207-217 | the flag row for the (feature, cohort) pair holds the new value; no other row changes |
| StoreFacts.FlagReadAfterWrite | d2d.py:199-217 | a flag reads back as last written; a missing flag reads as enabled; other flags are unaffected; the last write wins |
| Store.StarProject | d2d.py:238-248 | a repeated star changes nothing; a first star is recorded and adds one to the project's count when the project exists |
| StoreFacts.StarIdempotent | d2d.py:238-248 | starring twice equals starring once |
| StoreFacts.StarKeepsCount | d2d.py:238-248 | if every project's count equals its number of star rows, starring keeps it so |
| StoreFacts.DeleteAllKeepsCount | d2d.py:448-454 | `delete_all` keeps every project's count equal to its number of star rows |
| Store.FirstAnswer | d2d.py:352-365 | the answer comes from the first instance whose request succeeded; none exists exactly when every request failed |
| Store.Search | d2d.py:344-366 | an empty query returns nothing; a signed-in caller with an unknown tier gets the `KeyError` verdict; a refusal changes nothing; the ledger changes only by one logged search for a signed-in user after a successful request; at most 15 results |
| StoreFacts.SearchGate | d2d.py:344-366 | a signed-in search is refused exactly at the daily limit; once through, it is logged only when an instance answered and shows the first `min(15, n)` hits of that answer |
| StoreFacts.SearchAnonymous | d2d.py:344-366 | a search without a user, or with user id 0, is never gated and never touches the ledger; it shows the first `min(15, n)` hits of the first instance that answered, or nothing when the query is empty or no instance answered |

## Left out

- HTTP handlers, HTML pages, CSS and the command-line entry points of both files: they only route requests to the modelled operations and render strings.
- `generate_certificate` (the plain-text certificate): it only fills a string template from the same joined record as the JSON certificate. It shows the uuid, digest, name, size, time, owner, licence, notes and verify URL, plus the current time. It has no tags; its footer names the registry and its version.
- JSON text layout (`json.dumps` key order, indentation, escaping): the model builds the value handed to `json.dumps`.
- `watch_downloads` and its debounce: file-system events and threads. Its effect is a `register_content` call with `auto` set, which is modelled.
- Stripe checkout (`create_checkout_session`, `get_checkout_session`): network calls. Their only effect on the store is a `signup` with an email that may be missing, which is modelled.
- `mrr.py` and `widget.js`: outside the two core files.
- The read-only queries `get_usage_stats`, `get_versions`, `get_projects`, `get_user_stars`, `get_saved`, `get_content` and `get_by_uuid` of `d2d.py`, `export_json` and `export_md`, and the insert `add_project`: the model's state holds their tables directly.
- The internals of SHA-256, `uuid4`, `token_hex`, the clock and the SearXNG HTTP request: they are parameters. UUID uniqueness is therefore not assumed; a collision is modelled as the UNIQUE failure it causes.
- Concurrency: check-then-increment is not atomic in the source. Every operation here is a single step on one database value, so the race between two callers is not represented.
- Text.BaseName: does not normalise the path (repeated or trailing `/`, `.` segments), because `Path` normalisation is not modelled; for a path with a trailing slash the model's name is empty, while `Path.name` would give the last segment. For the same reason the record's `filepath` column holds the path as given, where the source stores the normalised `str(path)` (so `a//b` is stored as `a/b` there).
- Fingerprint.HashFile: a directory or an unreadable file is not modelled; the file system maps paths to file contents only.
- Registry.RegisterContent: a path that exists but is not a readable file (the empty path, which `Path` reads as `.`, or any directory) passes the existence check and then makes `hash_file` raise. The model reports "File not found" instead. The state is unchanged either way.
- Store.IsFeatureEnabled: carries no contract of its own; `StoreFacts.FlagReadAfterWrite` states what it returns. `enabled` is stored as a Python truth value, so any value written reads back as its truth value, modelled as a `bool`.
- Store.Search: results are an opaque sequence; a malformed JSON body makes the source move on to the next instance, which the model folds into a failed request.
- Store.DeleteSaved: the handler's conversion of a non-numeric bookmark id is part of the HTTP layer and not modelled; ids are natural numbers.
- The registry's `CONFIG` entries for name, tagline, licenses and watch folder: display-only or used by the unmodelled watcher; the licence is a free string, as the source never checks it against the list.
- The default arguments of `register_content` (licence `Proprietary`, empty tags and notes, `auto=False`): every field of `Registry.Upload` is given explicitly.
- Ledger.RefusalMessage: carries no contract of its own; `Ledger.RefusalMessageShowsBoth` states what it shows.
- Registry.ErrorMessage: carries no contract of its own; `RegistryFacts.LimitMessageCarriesLimit` states what the monthly-limit message shows.

=== FILE: certificate.dfy ===
/** `generate_certificate_json(uuid)`: the structured proof-of-registration
    document, built from the joined record on every call. The JSON text
    itself (key order, indentation, escaping) is not modelled; the value
    handed to `json.dumps` is. */
module Certificate {
  import opened Common
  import opened Text
  import opened Registry

  const VerifyBase: string := "http://localhost:5051/verify?uuid="
  const RegistryName: string := "Death2Data Content Registry"

  datatype CertificateJson = CertificateJson(
    uuid: Uuid,
    sha256: Digest,
    filename: string,
    filesize: nat,
    registeredAt: Timestamp,
    owner: string,
    license: string,
    tags: seq<string>,
    notes: string,
    verifyUrl: string,
    registry: string,
    version: string)

  /** The `tags` entry: no tags for an empty string, the comma-split otherwise. */
  function TagList(tags: string): (list: seq<string>)
    ensures tags == "" <==> list == []
    ensures list != [] ==> Join(list) == tags
    ensures forall i :: 0 <= i < |list| ==> NoComma(list[i])
  {
    if tags == "" then [] else (JoinSplit(tags); Split(tags))
  }

  function GenerateCertificateJson(s: Registry, uuid: Uuid): (r: Option<CertificateJson>)
    ensures r.None? <==> GetContent(s, uuid).None?
    ensures r.Some? ==>
      var found := GetContent(s, uuid).value;
      && r.value.uuid == found.record.uuid
      && r.value.sha256 == found.record.fileHash
      && r.value.filename == found.record.filename
      && r.value.filesize == found.record.filesize
      && r.value.registeredAt == found.record.registeredAt
      && r.value.owner == found.ownerEmail
      && r.value.license == found.record.license
      && r.value.notes == found.record.notes
      && (r.value.tags == [] <==> found.record.tags == "")
      && (found.record.tags != "" ==> r.value.tags == Split(found.record.tags))
      && (r.value.tags != [] ==> Join(r.value.tags) == found.record.tags)
      && r.value.verifyUrl == VerifyBase + found.record.uuid
      && r.value.registry == RegistryName
      && r.value.version == RegistryVersion
  {
    match GetContent(s, uuid)
    case None => None
    case Some(found) =>
      var c := found.record;
      Some(CertificateJson(c.uuid, c.fileHash, c.filename, c.filesize, c.registeredAt, found.ownerEmail,
                           c.license, TagList(c.tags), c.notes, VerifyBase + c.uuid, RegistryName, RegistryVersion))
  }
}

=== FILE: common.dfy ===
/** Shared vocabulary of both services: optional values, bytes, digests and
    the calendar keys that usage counters are filed under. */
module Common {

  /** An SQL NULL, a missing row or a Python `None`. */
  datatype Option<+T> = None | Some(value: T)

  /** What an operation hands back: a value, or the error it reports or raises. */
  datatype Result<+T, +E> = Success(value: T) | Failure(error: E)

  newtype byte = x: int | 0 <= x < 256

  type Bytes = seq<byte>

  /** A lowercase hexadecimal SHA-256 digest. The hash itself is never
      computed here: every operation that needs one receives it as a
      function parameter. */
  type Digest = string

  /** A point in time as far as the services care: the date part of a
      `datetime.now()` reading. */
  datatype Date = Date(year: int, month: int, day: int)

  /** `strftime("%Y-%m")`: the calendar month a reading falls in. */
  datatype MonthKey = MonthKey(year: int, month: int)

  /** `strftime("%Y-%m-%d")`: the calendar day a reading falls in. */
  datatype DayKey = DayKey(year: int, month: int, day: int)

  function MonthOf(d: Date): MonthKey
  {
    MonthKey(d.year, d.month)
  }

  function DayOf(d: Date): DayKey
  {
    DayKey(d.year, d.month, d.day)
  }

  /** An SQLite `CURRENT_TIMESTAMP` value. Its fixed-width text form sorts
      like the number of seconds it denotes, so a number stands for it. */
  type Timestamp = nat
}

=== FILE: decimal.dfy ===
/** Decimal rendering of integers, as Python's f-string interpolation writes
    them into error messages, and the parser that reads them back. */
module Decimal {

  function DigitChar(d: nat): (c: char)
    requires d < 10
    ensures '0' <= c <= '9'
  {
    "0123456789"[d]
  }

  function DigitValue(c: char): (d: nat)
    requires '0' <= c <= '9'
    ensures d < 10 && DigitChar(d) == c
  {
    (c as int - '0' as int) as nat
  }

  predicate IsDigits(s: string)
  {
    forall i :: 0 <= i < |s| ==> '0' <= s[i] <= '9'
  }

  /** `str(n)` for a non-negative integer: no leading zeros, at least one digit. */
  function ShowNat(n: nat): (s: string)
    ensures |s| >= 1 && IsDigits(s)
    ensures |s| > 1 ==> s[0] != '0'
  {
    if n < 10 then [DigitChar(n)] else ShowNat(n / 10) + [DigitChar(n % 10)]
  }

  /** `str(i)` for any integer: its decimal digits, after a minus sign
      when it is negative. */
  function ShowInt(i: int): (s: string)
    ensures |s| >= 1
    ensures i >= 0 <==> s[0] != '-'
  {
    if i < 0 then "-" + ShowNat(-i) else ShowNat(i)
  }

  /** `int(s)` on a string of digits. */
  function ParseNat(s: string): nat
    requires IsDigits(s)
  {
    if s == [] then 0 else 10 * ParseNat(s[..|s| - 1]) + DigitValue(s[|s| - 1])
  }

  lemma DigitRoundTrip(d: nat)
    requires d < 10
    ensures DigitValue(DigitChar(d)) == d
  {
    assert "0123456789"[d] as int == '0' as int + d;
  }

  /** Reading back what `ShowNat` wrote gives the number itself. */
  lemma {:induction false} ParseShowNat(n: nat)
    ensures ParseNat(ShowNat(n)) == n
  {
    var s := ShowNat(n);
    if n < 10 {
      DigitRoundTrip(n);
      assert s[..0] == [];
    } else {
      ParseShowNat(n / 10);
      DigitRoundTrip(n % 10);
      assert s[..|s| - 1] == ShowNat(n / 10);
    }
  }

  /** Two different numbers never render the same. */
  lemma ShowNatInjective(m: nat, n: nat)
    requires ShowNat(m) == ShowNat(n)
    ensures m == n
  {
    ParseShowNat(m);
    ParseShowNat(n);
  }

  /** What `ShowInt` writes reads back as the number: the digits alone for
      a non-negative number, the digits after the sign for a negative one. */
  lemma ShowIntReadsBack(i: int)
    ensures i >= 0 ==> IsDigits(ShowInt(i)) && ParseNat(ShowInt(i)) == i
    ensures i < 0 ==> |ShowInt(i)| >= 2 && IsDigits(ShowInt(i)[1..]) && ParseNat(ShowInt(i)[1..]) == -i
  {
    if i < 0 {
      SignedDigits(ShowInt(i), ShowNat(-i));
      ParseShowNat(-i);
    } else {
      ParseShowNat(i);
    }
  }

  lemma SignedDigits(s: string, digits: string)
    requires s == "-" + digits
    ensures s[1..] == digits
  {
  }
}

=== FILE: fingerprint.dfy ===
/** The fingerprint engine: `hash_file` streams a file through an
    incremental SHA-256 hasher in chunks of at most 8192 bytes. The hash
    function is a parameter; what is modelled is the streaming, and what is
    proved is that the stream feeds the hasher exactly the file's bytes. */
module Fingerprint {
  import opened Common

  /** The read size `hash_file` asks for. */
  const ChunkSize: nat := 8192

  /** The files visible to the service, by path. A path that is absent
      makes `open` raise `FileNotFoundError`. */
  type FileSystem = map<string, Bytes>

  /** A `hashlib.sha256()` object, seen through its contract: `update`
      appends to the message and `hexdigest` hashes the whole message. */
  datatype Hasher = Hasher(absorbed: Bytes)

  function Update(h: Hasher, chunk: Bytes): Hasher
  {
    Hasher(h.absorbed + chunk)
  }

  function HexDigest(h: Hasher, sha: Bytes -> Digest): Digest
  {
    sha(h.absorbed)
  }

  /** The chunks glued back together. */
  function Concat(chunks: seq<Bytes>): Bytes
  {
    if chunks == [] then [] else Concat(chunks[..|chunks| - 1]) + chunks[|chunks| - 1]
  }

  /** A hasher after `update` has been called with each chunk in turn. */
  function Feed(h: Hasher, chunks: seq<Bytes>): Hasher
  {
    if chunks == [] then h else Update(Feed(h, chunks[..|chunks| - 1]), chunks[|chunks| - 1])
  }

  /** Feeding chunks one by one leaves the hasher holding their concatenation. */
  lemma {:induction false} FeedAbsorbs(h: Hasher, chunks: seq<Bytes>)
    ensures Feed(h, chunks).absorbed == h.absorbed + Concat(chunks)
  {
    if chunks != [] {
      var init := chunks[..|chunks| - 1];
      FeedAbsorbs(h, init);
      assert Feed(h, chunks).absorbed == Feed(h, init).absorbed + chunks[|chunks| - 1];
    }
  }

  /** The digest depends on the bytes fed, never on how they were cut up. */
  lemma ChunkingIrrelevant(c1: seq<Bytes>, c2: seq<Bytes>, sha: Bytes -> Digest)
    requires Concat(c1) == Concat(c2)
    ensures HexDigest(Feed(Hasher([]), c1), sha) == HexDigest(Feed(Hasher([]), c2), sha)
  {
    FeedAbsorbs(Hasher([]), c1);
    FeedAbsorbs(Hasher([]), c2);
  }

  /** `f.read(n)` on a regular file positioned at `pos`: the next `n` bytes,
      or what is left when fewer remain; empty only at end of file. */
  function Read(file: Bytes, pos: nat, n: nat): (chunk: Bytes)
    requires pos <= |file|
    ensures |chunk| <= n && pos + |chunk| <= |file| && chunk == file[pos..pos + |chunk|]
    ensures |chunk| == n || pos + |chunk| == |file|
  {
    if pos + n <= |file| then file[pos..pos + n] else file[pos..]
  }

  /** `hash_file(path)`: reads until an empty chunk, feeding every chunk to
      the hasher, and returns the hex digest; `None` stands for the
      `FileNotFoundError` that `open` raises on a missing path. `chunks` are
      the arguments of the successive `update` calls. */
  method HashFile(fs: FileSystem, path: string, sha: Bytes -> Digest)
    returns (digest: Option<Digest>, chunks: seq<Bytes>)
    ensures path !in fs <==> digest == None
    ensures path in fs ==> digest == Some(sha(fs[path]))
    ensures path in fs ==> Concat(chunks) == fs[path]
    ensures forall i :: 0 <= i < |chunks| ==> 0 < |chunks[i]| <= ChunkSize
  {
    chunks := [];
    if path !in fs {
      return None, chunks;
    }
    var file := fs[path];
    var h := Hasher([]);
    var pos := 0;
    var chunk := Read(file, pos, ChunkSize);
    while chunk != []
      invariant pos <= |file|
      invariant chunk == Read(file, pos, ChunkSize)
      invariant h.absorbed == file[..pos]
      invariant Concat(chunks) == h.absorbed
      invariant forall i :: 0 <= i < |chunks| ==> 0 < |chunks[i]| <= ChunkSize
      decreases |file| - pos
    {
      h := Update(h, chunk);
      assert (chunks + [chunk])[..|chunks|] == chunks;
      chunks := chunks + [chunk];
      assert file[..pos + |chunk|] == file[..pos] + chunk;
      pos := pos + |chunk|;
      chunk := Read(file, pos, ChunkSize);
    }
    assert file[..pos] == file;
    digest := Some(HexDigest(h, sha));
  }
}

=== FILE: ledger.dfy ===
/** The usage ledger of `d2d.py`: one counter per (user, action, calendar
    day), bumped by `log_usage` and read by `check_limit` against the
    `TIERS` table. Every action is counted per day, including saves and
    registrations, whatever the comment over `TIERS` says. */
module Ledger {
  import opened Common
  import opened Decimal

  type UserId = nat

  /** The three values of the `action` column. */
  datatype Action = Searches | Saves | Registrations

  datatype TierLimits = TierLimits(searches: int, saves: int, registrations: int)

  /** `TIERS`. */
  function Tiers(): map<string, TierLimits>
  {
    map["free" := TierLimits(20, 50, 10), "member" := TierLimits(1000, 10000, 1000)]
  }

  function LimitFor(limits: TierLimits, action: Action): int
  {
    match action
    case Searches => limits.searches
    case Saves => limits.saves
    case Registrations => limits.registrations
  }

  /** The UNIQUE key `(user_id, action, date)` of `usage`. */
  datatype UsageKey = UsageKey(user: UserId, action: Action, date: DayKey)

  type Usage = map<UsageKey, nat>

  /** The stored count; a missing row reads as 0. */
  function CountOf(usage: Usage, key: UsageKey): nat
  {
    if key in usage then usage[key] else 0
  }

  /** `log_usage(user, action)` at clock reading `now`: insert a row with
      count 1, or (on the UNIQUE violation) add 1 to the existing row. */
  function LogUsage(usage: Usage, user: UserId, action: Action, now: Date): (r: Usage)
    ensures UsageKey(user, action, DayOf(now)) in r
    ensures CountOf(r, UsageKey(user, action, DayOf(now))) == CountOf(usage, UsageKey(user, action, DayOf(now))) + 1
    ensures forall k :: k != UsageKey(user, action, DayOf(now)) ==> (k in r <==> k in usage) && CountOf(r, k) == CountOf(usage, k)
  {
    var key := UsageKey(user, action, DayOf(now));
    if key !in usage then usage[key := 1] else usage[key := usage[key] + 1]
  }

  /** The answer of `check_limit`. `UnknownTier` stands for the `KeyError`
      that `TIERS[user_tier]` raises for a tier the table lacks. */
  datatype Verdict = Allowed | OverLimit(count: nat, limit: int) | UnknownTier(tier: string)

  /** The message `check_limit` returns with `False`. */
  function RefusalMessage(count: nat, limit: int): string
  {
    "Limit reached (" + ShowNat(count) + "/" + ShowInt(limit) + "). <a href='/upgrade'>Upgrade</a> for more."
  }

  /** `check_limit(user, action, tier)` at clock reading `now`. It reads the
      ledger and writes nothing. */
  function CheckLimit(usage: Usage, user: UserId, action: Action, tier: string, now: Date): (v: Verdict)
    ensures v.UnknownTier? <==> tier !in Tiers()
    ensures tier in Tiers() ==>
      (v == Allowed <==> CountOf(usage, UsageKey(user, action, DayOf(now))) < LimitFor(Tiers()[tier], action))
    ensures v.OverLimit? ==> v.count == CountOf(usage, UsageKey(user, action, DayOf(now))) && v.count >= v.limit
    ensures v.OverLimit? ==> v.limit == LimitFor(Tiers()[tier], action)
  {
    if tier !in Tiers() then UnknownTier(tier)
    else
      var count := CountOf(usage, UsageKey(user, action, DayOf(now)));
      var limit := LimitFor(Tiers()[tier], action);
      if count >= limit then OverLimit(count, limit) else Allowed
  }

  // ------------------------------------------- reference: the event log

  /** One successful, logged action. */
  datatype Event = Event(user: UserId, action: Action, at: Date)

  function KeyOf(e: Event): UsageKey
  {
    UsageKey(e.user, e.action, DayOf(e.at))
  }

  /** The ledger after logging each event in turn. */
  function Replay(usage: Usage, events: seq<Event>): Usage
  {
    if events == [] then usage
    else LogUsage(Replay(usage, events[..|events| - 1]), events[|events| - 1].user,
                  events[|events| - 1].action, events[|events| - 1].at)
  }

  /** How many events fall on the key's user, action and day. */
  function Occurrences(events: seq<Event>, key: UsageKey): nat
  {
    if events == [] then 0
    else Occurrences(events[..|events| - 1], key) + (if KeyOf(events[|events| - 1]) == key then 1 else 0)
  }

  /** Every counter equals what it started at plus the number of logged
      events on its user, action and day: in particular a day's counter is
      untouched by events of any other day. */
  lemma {:induction false} ReplayCounts(usage: Usage, events: seq<Event>, key: UsageKey)
    ensures CountOf(Replay(usage, events), key) == CountOf(usage, key) + Occurrences(events, key)
  {
    if events != [] {
      ReplayCounts(usage, events[..|events| - 1], key);
    }
  }

  /** From an empty day, the gate lets an action through exactly while
      fewer than the tier's limit of them have been logged that day. */
  lemma GateAfterEvents(events: seq<Event>, user: UserId, action: Action, tier: string, now: Date)
    requires tier in Tiers()
    ensures var n := Occurrences(events, UsageKey(user, action, DayOf(now)));
      CheckLimit(Replay(map[], events), user, action, tier, now)
      == if n < LimitFor(Tiers()[tier], action) then Allowed else OverLimit(n, LimitFor(Tiers()[tier], action))
  {
    ReplayCounts(map[], events, UsageKey(user, action, DayOf(now)));
  }

  lemma MiddleOf(p: string, x: string, q: string)
    ensures (p + x + q)[|p|..|p| + |x|] == x
  {
  }

  /** The refusal message shows the count and the limit, and both read back. */
  lemma RefusalMessageShowsBoth(count: nat, limit: nat)
    ensures var msg := RefusalMessage(count, limit);
      var a := |"Limit reached ("|;
      var b := a + |ShowNat(count)|;
      var c := b + 1 + |ShowNat(limit)|;
      && c <= |msg| && msg[b] == '/'
      && IsDigits(msg[a..b]) && ParseNat(msg[a..b]) == count
      && IsDigits(msg[b + 1..c]) && ParseNat(msg[b + 1..c]) == limit
  {
    var p, x, y := "Limit reached (", ShowNat(count), ShowNat(limit);
    var t := "). <a href='/upgrade'>Upgrade</a> for more.";
    var msg := RefusalMessage(count, limit);
    assert ShowInt(limit) == y;
    assert msg == p + x + "/" + y + t;
    assert msg == p + x + ("/" + y + t);
    MiddleOf(p, x, "/" + y + t);
    assert msg == (p + x + "/") + y + t;
    MiddleOf(p + x + "/", y, t);
    ParseShowNat(count);
    ParseShowNat(limit);
  }
}

=== FILE: listing.dfy ===
/** `get_user_content(user_id, limit)`: a user's records, newest first,
    at most `limit` of them (SQLite reads a negative LIMIT as "no limit"). */
module Listing {
  import opened Registry

  /** The uuids of the records a user owns. */
  function OwnedBy(content: map<Uuid, Record>, user: UserId): set<Uuid>
  {
    set k | k in content && content[k].userId == user
  }

  function Uuids(rows: seq<Record>): set<Uuid>
  {
    set i | 0 <= i < |rows| :: rows[i].uuid
  }

  /** How many rows `LIMIT limit` lets through out of `available`. */
  function Capped(limit: int, available: nat): nat
  {
    if limit < 0 || available <= limit then available else limit
  }

  /** What a correct answer to the query is: owned rows of the table,
      each at most once, in non-increasing `registered_at` order, as many
      as the limit allows, and never skipping a row newer than one it keeps. */
  ghost predicate IsListing(content: map<Uuid, Record>, user: UserId, limit: int, rows: seq<Record>)
  {
    && FromTable(content, user, rows)
    && Distinct(rows)
    && NewestFirst(rows)
    && |rows| == Capped(limit, |OwnedBy(content, user)|)
    && (forall k, i :: k in OwnedBy(content, user) && k !in Uuids(rows) && 0 <= i < |rows| ==>
          content[k].registeredAt <= rows[i].registeredAt)
  }

  /** A key of `pending` whose record is newest. */
  method Latest(content: map<Uuid, Record>, pending: set<Uuid>) returns (best: Uuid)
    requires pending != {} && pending <= content.Keys
    ensures best in pending
    ensures forall k :: k in pending ==> k in content && content[k].registeredAt <= content[best].registeredAt
  {
    best :| best in pending;
    var rest := pending - {best};
    while rest != {}
      invariant rest <= pending && best in pending
      invariant forall k :: k in pending - rest ==> content[k].registeredAt <= content[best].registeredAt
      decreases rest
    {
      var k :| k in rest;
      if content[k].registeredAt > content[best].registeredAt {
        best := k;
      }
      rest := rest - {k};
    }
  }

  ghost predicate FromTable(content: map<Uuid, Record>, user: UserId, rows: seq<Record>)
  {
    forall i :: 0 <= i < |rows| ==> rows[i].uuid in content && content[rows[i].uuid] == rows[i] && rows[i].userId == user
  }

  ghost predicate Distinct(rows: seq<Record>)
  {
    forall i, j :: 0 <= i < j < |rows| ==> rows[i].uuid != rows[j].uuid
  }

  ghost predicate NewestFirst(rows: seq<Record>)
  {
    forall i, j :: 0 <= i < j < |rows| ==> rows[i].registeredAt >= rows[j].registeredAt
  }

  /** No record of `pending` is newer than any row already listed. */
  ghost predicate NoneNewer(content: map<Uuid, Record>, pending: set<Uuid>, rows: seq<Record>)
  {
    forall k, i :: k in pending && 0 <= i < |rows| ==> k in content && content[k].registeredAt <= rows[i].registeredAt
  }

  /** Progress of the selection: `rows` are the newest owned records
      picked so far, `pending` the owned ones not yet picked. */
  ghost predicate Selecting(content: map<Uuid, Record>, user: UserId, rows: seq<Record>, pending: set<Uuid>)
  {
    && Uuids(rows) !! pending && Uuids(rows) + pending == OwnedBy(content, user)
    && |rows| + |pending| == |OwnedBy(content, user)|
    && FromTable(content, user, rows)
    && Distinct(rows)
    && NewestFirst(rows)
    && NoneNewer(content, pending, rows)
  }

  lemma UuidsAppend(rows: seq<Record>, row: Record)
    ensures Uuids(rows + [row]) == Uuids(rows) + {row.uuid}
  {
    var rows' := rows + [row];
    assert forall i :: 0 <= i < |rows| ==> rows'[i] == rows[i];
    assert rows'[|rows|] == row;
  }

  lemma DistinctAppend(rows: seq<Record>, row: Record)
    requires Distinct(rows) && row.uuid !in Uuids(rows)
    ensures Distinct(rows + [row])
  {
    var rows' := rows + [row];
    forall i, j | 0 <= i < j < |rows'|
      ensures rows'[i].uuid != rows'[j].uuid
    {
      if j == |rows| {
        assert rows'[i] == rows[i] && rows[i].uuid in Uuids(rows);
      } else {
        assert rows'[i] == rows[i] && rows'[j] == rows[j];
      }
    }
  }

  lemma NewestFirstAppend(content: map<Uuid, Record>, pending: set<Uuid>, rows: seq<Record>, best: Uuid)
    requires NewestFirst(rows) && NoneNewer(content, pending, rows) && best in pending && best in content
    ensures NewestFirst(rows + [content[best]])
  {
    var rows' := rows + [content[best]];
    forall i, j | 0 <= i < j < |rows'|
      ensures rows'[i].registeredAt >= rows'[j].registeredAt
    {
      assert rows'[i] == rows[i];
      if j < |rows| {
        assert rows'[j] == rows[j];
      }
    }
  }

  lemma NoneNewerAppend(content: map<Uuid, Record>, pending: set<Uuid>, rows: seq<Record>, best: Uuid)
    requires NoneNewer(content, pending, rows) && best in pending && best in content
    requires forall k :: k in pending ==> k in content && content[k].registeredAt <= content[best].registeredAt
    ensures NoneNewer(content, pending - {best}, rows + [content[best]])
  {
    var rows' := rows + [content[best]];
    forall k, i | k in pending - {best} && 0 <= i < |rows'|
      ensures content[k].registeredAt <= rows'[i].registeredAt
    {
      if i < |rows| {
        assert rows'[i] == rows[i];
      }
    }
  }

  lemma FromTableAppend(content: map<Uuid, Record>, user: UserId, rows: seq<Record>, row: Record)
    requires FromTable(content, user, rows)
    requires row.uuid in content && content[row.uuid] == row && row.userId == user
    ensures FromTable(content, user, rows + [row])
  {
    var rows' := rows + [row];
    assert forall i :: 0 <= i < |rows| ==> rows'[i] == rows[i];
    assert rows'[|rows|] == row;
  }

  /** Moving one uuid from `pending` to the listed rows keeps the two a
      partition of the owned set. */
  lemma PartitionStep(rows: seq<Record>, pending: set<Uuid>, owned: set<Uuid>, row: Record)
    requires Uuids(rows) !! pending && Uuids(rows) + pending == owned && |rows| + |pending| == |owned|
    requires row.uuid in pending
    ensures Uuids(rows + [row]) !! pending - {row.uuid} && Uuids(rows + [row]) + (pending - {row.uuid}) == owned
    ensures |rows + [row]| + |pending - {row.uuid}| == |owned|
    ensures row.uuid !in Uuids(rows)
  {
    UuidsAppend(rows, row);
  }

  lemma SelectNext(content: map<Uuid, Record>, user: UserId, rows: seq<Record>, pending: set<Uuid>, best: Uuid)
    requires forall k :: k in content ==> content[k].uuid == k
    requires Selecting(content, user, rows, pending)
    requires best in pending
    requires forall k :: k in pending ==> k in content && content[k].registeredAt <= content[best].registeredAt
    ensures Selecting(content, user, rows + [content[best]], pending - {best})
  {
    var row := content[best];
    var rows' := rows + [row];
    PartitionStep(rows, pending, OwnedBy(content, user), row);
    DistinctAppend(rows, row);
    NewestFirstAppend(content, pending, rows, best);
    NoneNewerAppend(content, pending, rows, best);
    FromTableAppend(content, user, rows, row);
  }

  lemma SelectionDone(content: map<Uuid, Record>, user: UserId, limit: int, rows: seq<Record>, pending: set<Uuid>)
    requires Selecting(content, user, rows, pending)
    requires |rows| == Capped(limit, |OwnedBy(content, user)|)
    ensures IsListing(content, user, limit, rows)
  {
  }

  method GetUserContent(content: map<Uuid, Record>, user: UserId, limit: int) returns (rows: seq<Record>)
    requires forall k :: k in content ==> content[k].uuid == k
    ensures IsListing(content, user, limit, rows)
  {
    var pending := OwnedBy(content, user);
    var cap := Capped(limit, |pending|);
    rows := [];
    while |rows| < cap
      invariant Selecting(content, user, rows, pending)
      invariant |rows| <= cap
      decreases cap - |rows|
    {
      var best := Latest(content, pending);
      SelectNext(content, user, rows, pending, best);
      rows := rows + [content[best]];
      pending := pending - {best};
    }
    SelectionDone(content, user, limit, rows, pending);
  }
}

=== FILE: registry.dfy ===
/** The content registry of `content_registry.py`: users, registered
    content records and the monthly registration counters, with the
    operations that read and change them. The database is a value of
    type `Registry`; each operation returns the new value. */
module Registry {
  import opened Common
  import opened Tables
  import opened Decimal
  import opened Text
  import Fingerprint

  type UserId = nat
  type Uuid = string

  /** `CONFIG["tiers"][tier]["files_per_month"]`; a limit that is not
      positive (the `paid` tier's -1) means unlimited. */
  function FilesPerMonth(): map<string, int>
  {
    map["free" := 10, "paid" := -1]
  }

  /** The `tier` column default and `CONFIG["version"]`. */
  const DefaultTier: string := "free"
  const RegistryVersion: string := "1.0.0"

  /** A row of `users`. */
  datatype User = User(email: string, tokenHash: Digest, tier: string, createdAt: Timestamp)

  /** A row of `content`, keyed by its `uuid`. */
  datatype Record = Record(
    uuid: Uuid,
    fileHash: Digest,
    filename: string,
    filepath: string,
    filesize: nat,
    userId: UserId,
    license: string,
    tags: string,
    notes: string,
    auto: bool,
    registeredAt: Timestamp)

  /** The primary key `(user_id, month)` of `usage`. */
  datatype UsageKey = UsageKey(user: UserId, month: MonthKey)

  /** The tables the core touches; `lastUserId` is the AUTOINCREMENT
      counter of `users`. */
  datatype Registry = Registry(
    users: map<UserId, User>,
    lastUserId: nat,
    content: map<Uuid, Record>,
    usage: map<UsageKey, nat>)

  /** What the schema guarantees of every reachable database: ids come from
      AUTOINCREMENT, `email` and `uuid` are UNIQUE, and a record sits under
      its own uuid. */
  ghost predicate Valid(s: Registry)
  {
    && IdsUpTo(s.users, s.lastUserId)
    && (forall i, j :: i in s.users && j in s.users && s.users[i].email == s.users[j].email ==> i == j)
    && (forall k :: k in s.content ==> s.content[k].uuid == k)
  }

  /** The database `init_db` creates: empty tables, no id handed out yet. */
  function Empty(): (s: Registry)
    ensures Valid(s)
  {
    Registry(map[], 0, map[], map[])
  }

  /** `files_registered` for a key; a missing row reads as 0. */
  function FilesRegistered(s: Registry, key: UsageKey): nat
  {
    if key in s.usage then s.usage[key] else 0
  }

  // ---------------------------------------------------------------- auth

  predicate EmailTaken(s: Registry, email: string)
  {
    exists id :: id in s.users && s.users[id].email == email
  }

  const EmailExists: string := "Email already exists"

  datatype SignupResult = SignupResult(state: Registry, token: Option<string>, error: Option<string>)

  /** `signup(email)`: stores the hash of the fresh `token` under a new
      user id, or reports the UNIQUE violation on `email` and changes nothing. */
  function Signup(s: Registry, email: string, token: string, hash: string -> Digest, now: Timestamp): (r: SignupResult)
    requires Valid(s)
    ensures EmailTaken(s, email) ==> r == SignupResult(s, None, Some(EmailExists))
    ensures !EmailTaken(s, email) ==>
      && r.token == Some(token) && r.error == None
      && r.state.lastUserId == s.lastUserId + 1
      && r.state.users.Keys == s.users.Keys + {r.state.lastUserId}
      && r.state.users[r.state.lastUserId] == User(email, hash(token), DefaultTier, now)
      && (forall id :: id in s.users ==> r.state.users[id] == s.users[id])
      && r.state.content == s.content && r.state.usage == s.usage
  {
    if EmailTaken(s, email) then SignupResult(s, None, Some(EmailExists))
    else
      var id := s.lastUserId + 1;
      SignupResult(s.(users := s.users[id := User(email, hash(token), DefaultTier, now)], lastUserId := id), Some(token), None)
  }

  /** `get_user(token)`: no user for an empty token, otherwise the first
      user (in id order) whose stored hash is the token's hash. */
  function GetUser(s: Registry, token: string, hash: string -> Digest): (r: Option<UserId>)
    ensures token == "" ==> r == None
    ensures r.Some? ==> r.value in s.users && s.users[r.value].tokenHash == hash(token)
    ensures r.Some? ==> forall id :: id in s.users && id < r.value ==> s.users[id].tokenHash != hash(token)
    ensures token != "" && r.None? && Valid(s) ==> forall id :: id in s.users ==> s.users[id].tokenHash != hash(token)
  {
    if token == "" then None
    else FirstKey(s.users, (u: User) => u.tokenHash == hash(token), 0, s.lastUserId)
  }

  // -------------------------------------------------------- registration

  /** The arguments of `register_content`. */
  datatype Upload = Upload(path: string, userId: UserId, license: string, tags: string, notes: string, auto: bool)

  /** The reasons `register_content` gives up. `UnknownTier` stands for the
      `KeyError` the tier lookup raises for a tier missing from the
      configuration; the others are the returned error strings. */
  datatype RegisterError = FileNotFound | MonthlyLimitReached(limit: int) | UniqueViolation | UnknownTier(tier: string)

  function ErrorMessage(e: RegisterError): string
  {
    match e
    case FileNotFound => "File not found"
    case MonthlyLimitReached(limit) => "Monthly limit reached (" + ShowInt(limit) + " files)"
    case UniqueViolation => "UNIQUE constraint failed: content.uuid"
    // the `str()` of the `KeyError` raised (not returned) by the tier lookup
    case UnknownTier(tier) => "'" + tier + "'"
  }

  datatype Registration = Registration(state: Registry, outcome: Result<Uuid, RegisterError>)

  /** The quota check of `register_content`, which runs only for explicit
      registrations of a user that exists and whose tier has a positive limit. */
  function QuotaGate(s: Registry, user: UserId, auto: bool, month: MonthKey): (r: Option<RegisterError>)
    ensures auto || user !in s.users ==> r == None
    ensures !auto && user in s.users && s.users[user].tier !in FilesPerMonth() ==>
      r == Some(UnknownTier(s.users[user].tier))
    ensures !auto && user in s.users && s.users[user].tier in FilesPerMonth() ==>
      var limit := FilesPerMonth()[s.users[user].tier];
      && (r.Some? <==> 0 < limit <= FilesRegistered(s, UsageKey(user, month)))
      && (r.Some? ==> r == Some(MonthlyLimitReached(limit)))
  {
    if auto || user !in s.users then None
    else
      var tier := s.users[user].tier;
      if tier !in FilesPerMonth() then Some(UnknownTier(tier))
      else
        var limit := FilesPerMonth()[tier];
        if limit > 0 && FilesRegistered(s, UsageKey(user, month)) >= limit then Some(MonthlyLimitReached(limit))
        else None
  }

  /** The record `register_content` inserts for a file with contents `bytes`. */
  function NewRecord(req: Upload, bytes: Bytes, sha: Bytes -> Digest, uuid: Uuid, stamp: Timestamp): Record
  {
    Record(uuid, sha(bytes), BaseName(req.path), req.path, |bytes|, req.userId,
           req.license, req.tags, req.notes, req.auto, stamp)
  }

  /** Every check `register_content` makes before it writes: the file
      exists, the quota gate passes and the uuid is not taken (the last
      one is the UNIQUE constraint, which fails the INSERT). */
  function Admission(s: Registry, req: Upload, fs: Fingerprint.FileSystem, uuid: Uuid, checkedAt: Date): (r: Option<RegisterError>)
    ensures req.path !in fs ==> r == Some(FileNotFound)
    ensures req.path in fs && QuotaGate(s, req.userId, req.auto, MonthOf(checkedAt)).Some? ==>
      r == QuotaGate(s, req.userId, req.auto, MonthOf(checkedAt))
    ensures req.path in fs ==>
      (r.None? <==> QuotaGate(s, req.userId, req.auto, MonthOf(checkedAt)).None? && uuid !in s.content)
    ensures r.None? ==> req.path in fs && uuid !in s.content
    // a taken uuid fails the INSERT with the UNIQUE-constraint error
    ensures req.path in fs && QuotaGate(s, req.userId, req.auto, MonthOf(checkedAt)).None? && uuid in s.content ==>
      r == Some(UniqueViolation)
  {
    if req.path !in fs then Some(FileNotFound)
    else
      var gate := QuotaGate(s, req.userId, req.auto, MonthOf(checkedAt));
      if gate.Some? then gate
      else if uuid in s.content then Some(UniqueViolation)
      else None
  }

  /** The two writes of a successful registration: the `INSERT INTO
      content` of the record under its uuid, then the `usage` upsert that
      inserts 1 or adds 1 to the month's count. */
  function Commit(s: Registry, rec: Record, key: UsageKey): (r: Registry)
    requires rec.uuid !in s.content
    ensures r.content.Keys == s.content.Keys + {rec.uuid}
    ensures r.content[rec.uuid] == rec
    ensures forall k :: k in s.content ==> r.content[k] == s.content[k]
    ensures FilesRegistered(r, key) == FilesRegistered(s, key) + 1
    ensures forall k :: k != key ==> FilesRegistered(r, k) == FilesRegistered(s, k)
    ensures r.users == s.users && r.lastUserId == s.lastUserId
  {
    s.(content := s.content[rec.uuid := rec], usage := s.usage[key := FilesRegistered(s, key) + 1])
  }

  /** `register_content(...)`. `uuid` is the `uuid4()` value, `checkedAt`
      and `bumpedAt` are the two clock readings (quota check, counter
      update) and `stamp` is the row's `CURRENT_TIMESTAMP`. */
  function RegisterContent(s: Registry, req: Upload, fs: Fingerprint.FileSystem, sha: Bytes -> Digest,
                           uuid: Uuid, checkedAt: Date, bumpedAt: Date, stamp: Timestamp): (r: Registration)
    // a missing file is reported before anything else
    ensures req.path !in fs ==> r == Registration(s, Failure(FileNotFound))
    // it fails exactly when admission refuses, with admission's error
    ensures r.outcome.Failure? <==> Admission(s, req, fs, uuid, checkedAt).Some?
    ensures r.outcome.Failure? ==> r.outcome.error == Admission(s, req, fs, uuid, checkedAt).value
    // no failure leaves a trace
    ensures r.outcome.Failure? ==> r.state == s
    // success: one new record, one more registration this month, nothing else
    ensures r.outcome.Success? ==>
      && req.path in fs && uuid !in s.content
      && r.outcome.value == uuid
      && r.state.content.Keys == s.content.Keys + {uuid}
      && r.state.content[uuid] == NewRecord(req, fs[req.path], sha, uuid, stamp)
      && (forall k :: k in s.content ==> r.state.content[k] == s.content[k])
      && FilesRegistered(r.state, UsageKey(req.userId, MonthOf(bumpedAt)))
         == FilesRegistered(s, UsageKey(req.userId, MonthOf(bumpedAt))) + 1
      && (forall k :: k != UsageKey(req.userId, MonthOf(bumpedAt)) ==> FilesRegistered(r.state, k) == FilesRegistered(s, k))
      && r.state.users == s.users && r.state.lastUserId == s.lastUserId
  {
    match Admission(s, req, fs, uuid, checkedAt)
    case Some(e) => Registration(s, Failure(e))
    case None => Registration(Commit(s, NewRecord(req, fs[req.path], sha, uuid, stamp), UsageKey(req.userId, MonthOf(bumpedAt))), Success(uuid))
  }

  // -------------------------------------------------------------- lookup

  /** A `content` row joined with its owner's email. */
  datatype Owned = Owned(record: Record, ownerEmail: string)

  /** `get_content(uuid)`: the inner join of `content` with `users`. */
  function GetContent(s: Registry, uuid: Uuid): (r: Option<Owned>)
    ensures r.Some? <==> uuid in s.content && s.content[uuid].userId in s.users
    ensures r.Some? ==> r.value.record == s.content[uuid]
    ensures r.Some? ==> r.value.ownerEmail == s.users[s.content[uuid].userId].email
  {
    if uuid in s.content && s.content[uuid].userId in s.users then
      Some(Owned(s.content[uuid], s.users[s.content[uuid].userId].email))
    else None
  }

  // ---------------------------------------------------------- verification

  const UuidNotFound: string := "UUID not found"
  const HashMatches: string := "File matches registered hash"
  const HashMismatch: string := "File has been modified (hash mismatch)"

  datatype Verdict = Verdict(matches: bool, reason: string)

  /** `verify_content(uuid, path)`. A `Failure` stands for the
      `FileNotFoundError` that hashing a missing candidate raises. */
  function VerifyContent(s: Registry, fs: Fingerprint.FileSystem, sha: Bytes -> Digest, uuid: Uuid, path: string): (r: Result<Verdict, string>)
    ensures GetContent(s, uuid).None? ==> r == Success(Verdict(false, UuidNotFound))
    ensures GetContent(s, uuid).Some? ==> (r.Failure? <==> path !in fs)
    ensures r.Success? && GetContent(s, uuid).Some? ==>
      (r.value.matches <==> sha(fs[path]) == s.content[uuid].fileHash)
    ensures r.Success? ==> r.value.reason == (if r.value.matches then HashMatches
                                             else if GetContent(s, uuid).None? then UuidNotFound
                                             else HashMismatch)
  {
    match GetContent(s, uuid)
    case None => Success(Verdict(false, UuidNotFound))
    case Some(found) =>
      if path !in fs then Failure(path)
      else if sha(fs[path]) == found.record.fileHash then Success(Verdict(true, HashMatches))
      else Success(Verdict(false, HashMismatch))
  }
}

=== FILE: registry_facts.dfy ===
/** What the content registry promises across operations: the quota gate,
    the counter it keeps, and that a registration can be looked up,
    verified and certified afterwards. */
module RegistryFacts {
  import opened Common
  import opened Decimal
  import opened Text
  import opened Registry
  import opened Certificate
  import Fingerprint

  /** The limit an explicit registration by `user` is held to, if any. */
  function PositiveLimit(s: Registry, user: UserId): Option<int>
  {
    if user in s.users && s.users[user].tier in FilesPerMonth() && FilesPerMonth()[s.users[user].tier] > 0
    then Some(FilesPerMonth()[s.users[user].tier])
    else None
  }

  /** An explicit registration by a user held to limit `L` is refused
      exactly when the month's count has reached `L`, and then changes nothing. */
  lemma QuotaRefusal(s: Registry, req: Upload, fs: Fingerprint.FileSystem, sha: Bytes -> Digest,
                     uuid: Uuid, checkedAt: Date, bumpedAt: Date, stamp: Timestamp)
    requires req.path in fs && !req.auto && PositiveLimit(s, req.userId).Some?
    ensures var r := RegisterContent(s, req, fs, sha, uuid, checkedAt, bumpedAt, stamp);
      && (r.outcome == Failure(MonthlyLimitReached(PositiveLimit(s, req.userId).value))
          <==> FilesRegistered(s, UsageKey(req.userId, MonthOf(checkedAt))) >= PositiveLimit(s, req.userId).value)
      && (r.outcome.Failure? ==> r.state == s)
      && ((FilesRegistered(s, UsageKey(req.userId, MonthOf(checkedAt))) < PositiveLimit(s, req.userId).value
           && uuid !in s.content) ==> r.outcome == Success(uuid))
  {
  }

  /** Automatic registrations, registrations for a user id with no user
      row, and tiers whose limit is not positive never meet the gate: with
      the file present and the uuid free they always succeed. */
  lemma QuotaSkipped(s: Registry, req: Upload, fs: Fingerprint.FileSystem, sha: Bytes -> Digest,
                     uuid: Uuid, checkedAt: Date, bumpedAt: Date, stamp: Timestamp)
    requires req.path in fs && uuid !in s.content
    requires || req.auto
             || req.userId !in s.users
             || (s.users[req.userId].tier in FilesPerMonth() && FilesPerMonth()[s.users[req.userId].tier] <= 0)
    ensures RegisterContent(s, req, fs, sha, uuid, checkedAt, bumpedAt, stamp).outcome == Success(uuid)
  {
  }

  /** A tier missing from the configuration makes every explicit
      registration of its users fail (the source raises `KeyError`). */
  lemma UnknownTierRaises(s: Registry, req: Upload, fs: Fingerprint.FileSystem, sha: Bytes -> Digest,
                          uuid: Uuid, checkedAt: Date, bumpedAt: Date, stamp: Timestamp)
    requires req.path in fs && !req.auto && req.userId in s.users
    requires s.users[req.userId].tier !in FilesPerMonth()
    ensures RegisterContent(s, req, fs, sha, uuid, checkedAt, bumpedAt, stamp)
            == Registration(s, Failure(UnknownTier(s.users[req.userId].tier)))
  {
  }

  /** The refusal message carries the limit in decimal, and it reads back. */
  lemma LimitMessageCarriesLimit(limit: int)
    requires limit > 0
    ensures var msg := ErrorMessage(MonthlyLimitReached(limit));
      var prefix := "Monthly limit reached (";
      && |prefix| + 7 <= |msg|
      && msg[..|prefix|] == prefix
      && msg[|msg| - 7..] == " files)"
      && IsDigits(msg[|prefix|..|msg| - 7])
      && ParseNat(msg[|prefix|..|msg| - 7]) == limit
  {
    var prefix := "Monthly limit reached (";
    var msg := ErrorMessage(MonthlyLimitReached(limit));
    assert msg == prefix + ShowNat(limit) + " files)";
    assert msg[|prefix|..|msg| - 7] == ShowNat(limit);
    ParseShowNat(limit);
  }

  /** Registration keeps the schema's guarantees. */
  lemma RegisterPreservesValid(s: Registry, req: Upload, fs: Fingerprint.FileSystem, sha: Bytes -> Digest,
                               uuid: Uuid, checkedAt: Date, bumpedAt: Date, stamp: Timestamp)
    requires Valid(s)
    ensures Valid(RegisterContent(s, req, fs, sha, uuid, checkedAt, bumpedAt, stamp).state)
  {
    var r := RegisterContent(s, req, fs, sha, uuid, checkedAt, bumpedAt, stamp);
    if r.outcome.Success? {
      assert r.state.users == s.users && r.state.lastUserId == s.lastUserId;
      forall k | k in r.state.content
        ensures r.state.content[k].uuid == k
      {
        if k != uuid {
          assert k in s.content;
        }
      }
    }
  }

  /** Signing up keeps the schema's guarantees. */
  lemma SignupPreservesValid(s: Registry, email: string, token: string, hash: string -> Digest, now: Timestamp)
    requires Valid(s)
    ensures Valid(Signup(s, email, token, hash, now).state)
  {
    var r := Signup(s, email, token, hash, now);
    if !EmailTaken(s, email) {
      var id := r.state.lastUserId;
      forall i, j | i in r.state.users && j in r.state.users && r.state.users[i].email == r.state.users[j].email
        ensures i == j
      {
        if i != id && j != id {
          assert s.users[i].email == s.users[j].email;
        }
      }
    }
  }

  /** A user who just signed up logs in with the returned token, provided
      no earlier user's token hash collides with it. */
  lemma SignupThenGetUser(s: Registry, email: string, token: string, hash: string -> Digest, now: Timestamp)
    requires Valid(s) && token != "" && !EmailTaken(s, email)
    requires forall id :: id in s.users ==> s.users[id].tokenHash != hash(token)
    ensures var r := Signup(s, email, token, hash, now);
      && GetUser(r.state, token, hash) == Some(r.state.lastUserId)
      && r.state.users[r.state.lastUserId].email == email
  {
  }

  /** An admitted registration succeeds, and what was registered can be
      looked up: the record and its owner's email, as long as the owner row
      exists; otherwise the join hides it. */
  lemma RegisterThenLookup(s: Registry, req: Upload, fs: Fingerprint.FileSystem, sha: Bytes -> Digest,
                           uuid: Uuid, checkedAt: Date, bumpedAt: Date, stamp: Timestamp)
    requires req.path in fs && uuid !in s.content && QuotaGate(s, req.userId, req.auto, MonthOf(checkedAt)).None?
    ensures var r := RegisterContent(s, req, fs, sha, uuid, checkedAt, bumpedAt, stamp);
      && r.outcome == Success(uuid)
      && (req.userId in s.users ==>
            GetContent(r.state, uuid) == Some(Owned(NewRecord(req, fs[req.path], sha, uuid, stamp), s.users[req.userId].email)))
      && (req.userId !in s.users ==> GetContent(r.state, uuid) == None)
  {
  }

  /** The ownership proof: the registered file verifies against its uuid,
      and a file whose digest differs is reported as modified. */
  lemma RegisterThenVerify(s: Registry, req: Upload, fs: Fingerprint.FileSystem, sha: Bytes -> Digest,
                           uuid: Uuid, checkedAt: Date, bumpedAt: Date, stamp: Timestamp, other: string)
    requires req.path in fs && uuid !in s.content && QuotaGate(s, req.userId, req.auto, MonthOf(checkedAt)).None?
    requires req.userId in s.users
    ensures var r := RegisterContent(s, req, fs, sha, uuid, checkedAt, bumpedAt, stamp);
      && VerifyContent(r.state, fs, sha, uuid, req.path) == Success(Verdict(true, HashMatches))
      && (other in fs && sha(fs[other]) != sha(fs[req.path]) ==>
            VerifyContent(r.state, fs, sha, uuid, other) == Success(Verdict(false, HashMismatch)))
  {
    RegisterThenLookup(s, req, fs, sha, uuid, checkedAt, bumpedAt, stamp);
  }

  /** The certificate issued right after registration reproduces the
      registered facts; its tag list re-joins to the tags given. */
  lemma RegisterThenCertificate(s: Registry, req: Upload, fs: Fingerprint.FileSystem, sha: Bytes -> Digest,
                                uuid: Uuid, checkedAt: Date, bumpedAt: Date, stamp: Timestamp)
    requires req.path in fs && uuid !in s.content && QuotaGate(s, req.userId, req.auto, MonthOf(checkedAt)).None?
    requires req.userId in s.users
    ensures var c := GenerateCertificateJson(RegisterContent(s, req, fs, sha, uuid, checkedAt, bumpedAt, stamp).state, uuid);
      && c.Some?
      && c.value.uuid == uuid
      && c.value.sha256 == sha(fs[req.path])
      && c.value.filename == BaseName(req.path)
      && c.value.filesize == |fs[req.path]|
      && c.value.registeredAt == stamp
      && c.value.owner == s.users[req.userId].email
      && c.value.license == req.license
      && c.value.notes == req.notes
      && (req.tags == "" ==> c.value.tags == [])
      && (req.tags != "" ==> c.value.tags == Split(req.tags) && Join(c.value.tags) == req.tags)
  {
    RegisterThenLookup(s, req, fs, sha, uuid, checkedAt, bumpedAt, stamp);
    JoinSplit(req.tags);
  }

  /** The state after registering the same upload once per uuid, all in
      one calendar month. */
  function RegisterRun(s: Registry, req: Upload, fs: Fingerprint.FileSystem, sha: Bytes -> Digest,
                       uuids: seq<Uuid>, at: Date, stamp: Timestamp): Registry
    decreases |uuids|
  {
    if uuids == [] then s
    else RegisterRun(RegisterContent(s, req, fs, sha, uuids[0], at, at, stamp).state, req, fs, sha, uuids[1..], at, stamp)
  }

  /** One explicit registration below the limit: it succeeds, adds its
      record and one to the month's count, and leaves the users alone. */
  lemma StepWithinLimit(s: Registry, req: Upload, fs: Fingerprint.FileSystem, sha: Bytes -> Digest,
                        uuid: Uuid, at: Date, stamp: Timestamp)
    requires req.path in fs && !req.auto && PositiveLimit(s, req.userId).Some?
    requires FilesRegistered(s, UsageKey(req.userId, MonthOf(at))) < PositiveLimit(s, req.userId).value
    requires uuid !in s.content
    ensures var t := RegisterContent(s, req, fs, sha, uuid, at, at, stamp).state;
      && FilesRegistered(t, UsageKey(req.userId, MonthOf(at))) == FilesRegistered(s, UsageKey(req.userId, MonthOf(at))) + 1
      && t.users == s.users
      && t.content.Keys == s.content.Keys + {uuid}
      && PositiveLimit(t, req.userId) == PositiveLimit(s, req.userId)
  {
    QuotaRefusal(s, req, fs, sha, uuid, at, at, stamp);
  }

  /** Within its limit, every explicit registration of a run succeeds and
      the month's count grows by exactly the run's length. */
  lemma {:induction false} RunWithinLimit(s: Registry, req: Upload, fs: Fingerprint.FileSystem, sha: Bytes -> Digest,
                                          uuids: seq<Uuid>, at: Date, stamp: Timestamp)
    requires req.path in fs && !req.auto && PositiveLimit(s, req.userId).Some?
    requires FilesRegistered(s, UsageKey(req.userId, MonthOf(at))) + |uuids| <= PositiveLimit(s, req.userId).value
    requires forall i, j :: 0 <= i < j < |uuids| ==> uuids[i] != uuids[j]
    requires forall i :: 0 <= i < |uuids| ==> uuids[i] !in s.content
    ensures var t := RegisterRun(s, req, fs, sha, uuids, at, stamp);
      && FilesRegistered(t, UsageKey(req.userId, MonthOf(at))) == FilesRegistered(s, UsageKey(req.userId, MonthOf(at))) + |uuids|
      && t.users == s.users
      && (forall i :: 0 <= i < |uuids| ==> uuids[i] in t.content)
    decreases |uuids|
  {
    if uuids != [] {
      StepWithinLimit(s, req, fs, sha, uuids[0], at, stamp);
      var s1 := RegisterContent(s, req, fs, sha, uuids[0], at, at, stamp).state;
      FreshTail(s.content.Keys, s1.content.Keys, uuids);
      RunWithinLimit(s1, req, fs, sha, uuids[1..], at, stamp);
      RunKeepsRecords(s1, req, fs, sha, uuids[1..], at, stamp, uuids[0]);
      HeadAndTail(uuids, RegisterRun(s, req, fs, sha, uuids, at, stamp).content.Keys);
    }
  }

  /** Uuids distinct from one another and from `before` stay fresh after
      the first of them is taken. */
  lemma FreshTail(before: set<Uuid>, after: set<Uuid>, uuids: seq<Uuid>)
    requires |uuids| > 0 && after == before + {uuids[0]}
    requires forall i, j :: 0 <= i < j < |uuids| ==> uuids[i] != uuids[j]
    requires forall i :: 0 <= i < |uuids| ==> uuids[i] !in before
    ensures forall i, j :: 0 <= i < j < |uuids[1..]| ==> uuids[1..][i] != uuids[1..][j]
    ensures forall i :: 0 <= i < |uuids[1..]| ==> uuids[1..][i] !in after
  {
    forall i | 0 <= i < |uuids[1..]|
      ensures uuids[1..][i] !in after
    {
      assert uuids[1..][i] == uuids[i + 1] && uuids[i + 1] != uuids[0];
    }
  }

  lemma HeadAndTail(uuids: seq<Uuid>, keys: set<Uuid>)
    requires |uuids| > 0 && uuids[0] in keys
    requires forall i :: 0 <= i < |uuids[1..]| ==> uuids[1..][i] in keys
    ensures forall i :: 0 <= i < |uuids| ==> uuids[i] in keys
  {
    forall i | 0 < i < |uuids|
      ensures uuids[i] in keys
    {
      assert uuids[i] == uuids[1..][i - 1];
    }
  }

  /** Registrations only ever add records. */
  lemma {:induction false} RunKeepsRecords(s: Registry, req: Upload, fs: Fingerprint.FileSystem, sha: Bytes -> Digest,
                                           uuids: seq<Uuid>, at: Date, stamp: Timestamp, k: Uuid)
    requires k in s.content
    ensures k in RegisterRun(s, req, fs, sha, uuids, at, stamp).content
    decreases |uuids|
  {
    if uuids != [] {
      RunKeepsRecords(RegisterContent(s, req, fs, sha, uuids[0], at, at, stamp).state, req, fs, sha, uuids[1..], at, stamp, k);
    }
  }

  /** The quota in one piece: from an empty month, `L` explicit
      registrations succeed and the next one is refused with the limit. */
  lemma QuotaExhausted(s: Registry, req: Upload, fs: Fingerprint.FileSystem, sha: Bytes -> Digest,
                       uuids: seq<Uuid>, next: Uuid, at: Date, stamp: Timestamp)
    requires req.path in fs && !req.auto && PositiveLimit(s, req.userId).Some?
    requires FilesRegistered(s, UsageKey(req.userId, MonthOf(at))) == 0
    requires |uuids| == PositiveLimit(s, req.userId).value
    requires forall i, j :: 0 <= i < j < |uuids| ==> uuids[i] != uuids[j]
    requires forall i :: 0 <= i < |uuids| ==> uuids[i] !in s.content
    ensures var t := RegisterRun(s, req, fs, sha, uuids, at, stamp);
      RegisterContent(t, req, fs, sha, next, at, at, stamp)
      == Registration(t, Failure(MonthlyLimitReached(PositiveLimit(s, req.userId).value)))
  {
    RunWithinLimit(s, req, fs, sha, uuids, at, stamp);
    var t := RegisterRun(s, req, fs, sha, uuids, at, stamp);
    assert PositiveLimit(t, req.userId) == PositiveLimit(s, req.userId);
    QuotaRefusal(t, req, fs, sha, next, at, at, stamp);
  }

  /** As written, an automatic registration is exempt from the check but
      still bumps the counter: one taken when a single explicit
      registration is left uses it up, and the explicit one is refused. */
  lemma AutoRegistrationConsumesQuota(s: Registry, auto: Upload, explicit: Upload, fs: Fingerprint.FileSystem,
                                      sha: Bytes -> Digest, u1: Uuid, u2: Uuid, at: Date, stamp: Timestamp)
    requires auto.auto && !explicit.auto && auto.userId == explicit.userId
    requires auto.path in fs && explicit.path in fs && u1 !in s.content
    requires PositiveLimit(s, explicit.userId).Some?
    requires FilesRegistered(s, UsageKey(explicit.userId, MonthOf(at))) + 1 == PositiveLimit(s, explicit.userId).value
    ensures var r1 := RegisterContent(s, auto, fs, sha, u1, at, at, stamp);
      && r1.outcome == Success(u1)
      && RegisterContent(r1.state, explicit, fs, sha, u2, at, at, stamp).outcome
         == Failure(MonthlyLimitReached(PositiveLimit(s, explicit.userId).value))
  {
    var r1 := RegisterContent(s, auto, fs, sha, u1, at, at, stamp);
    assert PositiveLimit(r1.state, explicit.userId) == PositiveLimit(s, explicit.userId);
    QuotaRefusal(r1.state, explicit, fs, sha, u2, at, at, stamp);
  }
}

=== FILE: store.dfy ===
/** The tables of `d2d.py` and the operations over them: accounts,
    bookmarks (`saved`), registered content, the usage ledger, the
    changelog (`versions`), feature flags and project stars. The database
    is a value of type `Store`; each operation returns the new value.
    Foreign keys are declared in the schema but never switched on, so no
    delete cascades and no insert checks that the row it points at exists. */
module Store {
  import opened Common
  import opened Tables
  import opened Ledger

  type Uuid = string
  type SavedId = nat
  type ProjectId = nat

  /** A row of `users`. */
  datatype Account = Account(email: string, tokenHash: Digest, stripeCustomer: Option<string>, tier: string, cohort: string)

  /** A row of `saved`. */
  datatype Bookmark = Bookmark(userId: UserId, title: string, url: string, snippet: string)

  /** A row of `content`, keyed by its `uuid`. */
  datatype Work = Work(uuid: Uuid, userId: UserId, title: string, description: string, contentType: string, contentHash: Digest)

  /** A row of `versions`, keyed by its `version`. */
  datatype Release = Release(features: string, valueImpact: string, releasedAt: Timestamp)

  /** The UNIQUE key `(feature_name, cohort)` of `feature_flags`. */
  datatype FlagKey = FlagKey(feature: string, cohort: string)

  /** A row of `projects`. */
  datatype Project = Project(name: string, url: string, stars: int)

  /** A row of `project_stars`: UNIQUE on `(user_id, project_id)`. */
  datatype Star = Star(user: UserId, project: ProjectId)

  datatype Store = Store(
    users: map<UserId, Account>,
    lastUserId: nat,
    saved: map<SavedId, Bookmark>,
    lastSavedId: nat,
    content: map<Uuid, Work>,
    usage: Usage,
    versions: map<string, Release>,
    flags: map<FlagKey, bool>,
    projects: map<ProjectId, Project>,
    stars: set<Star>)

  /** What the schema guarantees of every reachable database. */
  ghost predicate Valid(s: Store)
  {
    && IdsUpTo(s.users, s.lastUserId)
    && IdsUpTo(s.saved, s.lastSavedId)
    && (forall i, j :: i in s.users && j in s.users && s.users[i].email == s.users[j].email ==> i == j)
    && (forall k :: k in s.content ==> s.content[k].uuid == k)
  }

  /** The database `init_db` creates: empty tables, no id handed out yet. */
  function Empty(): (s: Store)
    ensures Valid(s)
  {
    Store(map[], 0, map[], 0, map[], map[], map[], map[], map[], {})
  }

  const DefaultTier: string := "free"
  const DefaultCohort: string := "A"

  // ---------------------------------------------------------------- auth

  predicate HasEmail(s: Store, email: string)
  {
    exists id :: id in s.users && s.users[id].email == email
  }

  /** `signup(email, stripe_customer_id)`: always hands back the fresh
      token. A new email gets a new account; a known email gets its token
      hash and customer id overwritten; a missing email (`None`, from a
      checkout session without one) fails the NOT NULL insert and then
      updates no row, so nothing changes. */
  function Signup(s: Store, email: Option<string>, customer: Option<string>, token: string, hash: string -> Digest): (r: Store)
    requires Valid(s)
    ensures email.None? ==> r == s
    ensures email.Some? && HasEmail(s, email.value) ==>
      && r == s.(users := r.users)
      && r.users.Keys == s.users.Keys
      && forall id :: id in s.users ==>
           r.users[id] == if s.users[id].email == email.value
                          then s.users[id].(tokenHash := hash(token), stripeCustomer := customer)
                          else s.users[id]
    ensures email.Some? && !HasEmail(s, email.value) ==>
      && r == s.(users := r.users, lastUserId := s.lastUserId + 1)
      && r.users.Keys == s.users.Keys + {r.lastUserId}
      && r.users[r.lastUserId] == Account(email.value, hash(token), customer, DefaultTier, DefaultCohort)
      && forall id :: id in s.users ==> r.users[id] == s.users[id]
  {
    match email
    case None => s
    case Some(e) =>
      if HasEmail(s, e) then
        s.(users := map id | id in s.users :: if s.users[id].email == e
                                               then s.users[id].(tokenHash := hash(token), stripeCustomer := customer)
                                               else s.users[id])
      else
        var id := s.lastUserId + 1;
        s.(users := s.users[id := Account(e, hash(token), customer, DefaultTier, DefaultCohort)], lastUserId := id)
  }

  /** `login(token)`: nobody for an empty token, otherwise the first
      account (in id order) whose stored hash is the token's hash. */
  function Login(s: Store, token: string, hash: string -> Digest): (r: Option<UserId>)
    ensures token == "" ==> r == None
    ensures r.Some? ==> r.value in s.users && s.users[r.value].tokenHash == hash(token)
    ensures r.Some? ==> forall id :: id in s.users && id < r.value ==> s.users[id].tokenHash != hash(token)
    ensures token != "" && r.None? && Valid(s) ==> forall id :: id in s.users ==> s.users[id].tokenHash != hash(token)
  {
    if token == "" then None
    else FirstKey(s.users, (a: Account) => a.tokenHash == hash(token), 0, s.lastUserId)
  }

  // ------------------------------------------------------------ bookmarks

  datatype Saving = Saving(state: Store, verdict: Verdict)

  /** `save(user, title, url, snippet, tier)`. `checkedAt` and `loggedAt`
      are the clock readings of `check_limit` and `log_usage`. The verdict
      is `Allowed` when the bookmark was stored (the source returns `None`),
      otherwise the refusal (returned as its message) or the unknown tier
      (raised). */
  function Save(s: Store, user: UserId, title: string, url: string, snippet: string, tier: string,
                checkedAt: Date, loggedAt: Date): (r: Saving)
    requires Valid(s)
    ensures r.verdict == CheckLimit(s.usage, user, Saves, tier, checkedAt)
    ensures r.verdict != Allowed ==> r.state == s
    ensures r.verdict == Allowed ==>
      && r.state == s.(saved := r.state.saved, lastSavedId := s.lastSavedId + 1, usage := r.state.usage)
      && r.state.lastSavedId !in s.saved
      && r.state.saved.Keys == s.saved.Keys + {r.state.lastSavedId}
      && r.state.saved[r.state.lastSavedId] == Bookmark(user, title, url, snippet)
      && (forall id :: id in s.saved ==> r.state.saved[id] == s.saved[id])
      && r.state.usage == LogUsage(s.usage, user, Saves, loggedAt)
  {
    var verdict := CheckLimit(s.usage, user, Saves, tier, checkedAt);
    if verdict != Allowed then Saving(s, verdict)
    else
      var id := s.lastSavedId + 1;
      Saving(s.(saved := s.saved[id := Bookmark(user, title, url, snippet)], lastSavedId := id,
                usage := LogUsage(s.usage, user, Saves, loggedAt)),
             Allowed)
  }

  /** `delete_saved(user, sid)`: removes bookmark `sid` only if `user` owns it. */
  function DeleteSaved(s: Store, user: UserId, sid: SavedId): (r: Store)
    ensures r == s.(saved := r.saved)
    ensures sid in s.saved && s.saved[sid].userId == user ==> r.saved.Keys == s.saved.Keys - {sid}
    ensures !(sid in s.saved && s.saved[sid].userId == user) ==> r.saved == s.saved
    ensures forall id :: id in r.saved ==> id in s.saved && r.saved[id] == s.saved[id]
  {
    if sid in s.saved && s.saved[sid].userId == user then s.(saved := s.saved - {sid}) else s
  }

  // ------------------------------------------------------------- content

  /** How `register` ends: the new uuid, the gate's refusal (returned) or
      unknown tier (raised), or the `IntegrityError` raised when the uuid is
      already taken. */
  datatype IssueOutcome = Issued(uuid: Uuid) | Refused(verdict: Verdict) | UuidTaken

  datatype Issuing = Issuing(state: Store, outcome: IssueOutcome)

  /** `register(user, title, description, ctype, tier)`. `uuid` is the
      `uuid4()` value; the content hash is SHA-256 of the title, the
      description and the UTC time rendered as `utcNow`, so it cannot be
      recomputed later. */
  function Register(s: Store, user: UserId, title: string, description: string, ctype: string, tier: string,
                    uuid: Uuid, sha: string -> Digest, utcNow: string, checkedAt: Date, loggedAt: Date): (r: Issuing)
    ensures CheckLimit(s.usage, user, Registrations, tier, checkedAt) != Allowed ==>
      r == Issuing(s, Refused(CheckLimit(s.usage, user, Registrations, tier, checkedAt)))
    ensures r.outcome == UuidTaken <==> CheckLimit(s.usage, user, Registrations, tier, checkedAt) == Allowed && uuid in s.content
    ensures CheckLimit(s.usage, user, Registrations, tier, checkedAt) == Allowed && uuid !in s.content ==>
      r.outcome == Issued(uuid)
    ensures !r.outcome.Issued? ==> r.state == s
    ensures r.outcome.Issued? ==>
      && r.outcome.uuid == uuid && uuid !in s.content
      && r.state == s.(content := r.state.content, usage := r.state.usage)
      && r.state.content.Keys == s.content.Keys + {uuid}
      && r.state.content[uuid] == Work(uuid, user, title, description, ctype, sha(title + description + utcNow))
      && (forall k :: k in s.content ==> r.state.content[k] == s.content[k])
      && r.state.usage == LogUsage(s.usage, user, Registrations, loggedAt)
  {
    var verdict := CheckLimit(s.usage, user, Registrations, tier, checkedAt);
    if verdict != Allowed then Issuing(s, Refused(verdict))
    else if uuid in s.content then Issuing(s, UuidTaken)
    else
      var work := Work(uuid, user, title, description, ctype, sha(title + description + utcNow));
      Issuing(s.(content := s.content[uuid := work], usage := LogUsage(s.usage, user, Registrations, loggedAt)),
              Issued(uuid))
  }

  /** `delete_all(user)`: the user's bookmarks, content and account go;
      usage rows and stars stay, since nothing cascades. */
  function DeleteAll(s: Store, user: UserId): (r: Store)
    ensures r == s.(users := r.users, saved := r.saved, content := r.content)
    ensures user !in r.users && r.users.Keys == s.users.Keys - {user}
    ensures forall id :: id in r.users ==> r.users[id] == s.users[id]
    ensures forall id :: id in s.saved ==> (id in r.saved <==> s.saved[id].userId != user)
    ensures forall id :: id in r.saved ==> id in s.saved && r.saved[id] == s.saved[id]
    ensures forall k :: k in s.content ==> (k in r.content <==> s.content[k].userId != user)
    ensures forall k :: k in r.content ==> k in s.content && r.content[k] == s.content[k]
  {
    s.(saved := DeleteWhere(s.saved, (b: Bookmark) => b.userId == user),
       content := DeleteWhere(s.content, (w: Work) => w.userId == user),
       users := s.users - {user})
  }

  // ---------------------------------------------------------- changelog

  /** `add_version(version, features, value_impact)`: inserts a release
      under a new version string; an existing version is left as it was. */
  function AddVersion(s: Store, version: string, features: string, valueImpact: string, now: Timestamp): (r: Store)
    ensures r == s.(versions := r.versions)
    ensures version in s.versions ==> r == s
    ensures version !in s.versions ==>
      r.versions == s.versions[version := Release(features, valueImpact, now)]
  {
    if version in s.versions then s else s.(versions := s.versions[version := Release(features, valueImpact, now)])
  }

  // ------------------------------------------------------- feature flags

  /** `set_feature_flag(feature, cohort, enabled)`: insert, or overwrite
      `enabled` of the existing row. */
  function SetFeatureFlag(s: Store, feature: string, cohort: string, enabled: bool): (r: Store)
    ensures r == s.(flags := r.flags)
    ensures FlagKey(feature, cohort) in r.flags && r.flags[FlagKey(feature, cohort)] == enabled
    ensures forall k :: k != FlagKey(feature, cohort) ==> (k in r.flags <==> k in s.flags)
    ensures forall k :: k != FlagKey(feature, cohort) && k in r.flags ==> r.flags[k] == s.flags[k]
  {
    s.(flags := s.flags[FlagKey(feature, cohort) := enabled])
  }

  /** `is_feature_enabled(feature, cohort)`: the stored flag; enabled when
      no row exists. */
  function IsFeatureEnabled(s: Store, feature: string, cohort: string): bool
  {
    var key := FlagKey(feature, cohort);
    if key in s.flags then s.flags[key] else true
  }

  // --------------------------------------------------------------- stars

  /** `star_project(user, project)`: the first star of a pair is recorded
      and bumps the project's count (when the project row exists); the
      UNIQUE violation of any repeat is swallowed and nothing changes. */
  function StarProject(s: Store, user: UserId, project: ProjectId): (r: Store)
    ensures Star(user, project) in s.stars ==> r == s
    ensures Star(user, project) !in s.stars ==>
      && r == s.(stars := r.stars, projects := r.projects)
      && r.stars == s.stars + {Star(user, project)}
      && r.projects.Keys == s.projects.Keys
      && (project in s.projects ==> r.projects[project] == s.projects[project].(stars := s.projects[project].stars + 1))
      && (forall p :: p in s.projects && p != project ==> r.projects[p] == s.projects[p])
  {
    if Star(user, project) in s.stars then s
    else
      var projects := if project in s.projects
                      then s.projects[project := s.projects[project].(stars := s.projects[project].stars + 1)]
                      else s.projects;
      s.(stars := s.stars + {Star(user, project)}, projects := projects)
  }

  // -------------------------------------------------------------- search

  /** The SearXNG instances, tried in order. */
  function Instances(): seq<string>
  {
    ["https://searx.be", "https://search.sapti.me"]
  }

  /** At most this many results are returned. */
  const MaxResults: nat := 15

  datatype SearchAnswer<T> = Results(hits: seq<T>) | LimitError(verdict: Verdict)

  datatype Searching<T> = Searching(state: Store, answer: SearchAnswer<T>)

  /** The first instance whose request succeeded, and its results. */
  function FirstAnswer<T>(instances: seq<string>, fetch: string -> Option<seq<T>>): (r: Option<seq<T>>)
    ensures r.None? <==> forall i :: 0 <= i < |instances| ==> fetch(instances[i]).None?
    ensures r.Some? ==> exists i :: 0 <= i < |instances| && fetch(instances[i]) == r
                                 && forall j :: 0 <= j < i ==> fetch(instances[j]).None?
  {
    if instances == [] then None
    else if fetch(instances[0]).Some? then fetch(instances[0])
    else
      var rest := FirstAnswer(instances[1..], fetch);
      assert forall i :: 0 < i < |instances| ==> instances[i] == instances[1..][i - 1];
      rest
  }

  /** `search(query, user, tier)`: the quota gate around the outbound
      requests. `fetch` stands for one request to an instance: its results,
      or `None` when the request raised. Only a successful request by a
      signed-in user is logged. A user id of 0 counts as signed out, as
      Python's truth test on it does. A signed-in caller whose tier is not
      in `TIERS` gets the `UnknownTier` verdict, standing for the
      `KeyError` that `check_limit` raises. */
  function Search<T>(s: Store, query: string, user: Option<UserId>, tier: string,
                     fetch: string -> Option<seq<T>>, checkedAt: Date, loggedAt: Date): (r: Searching<T>)
    ensures query == "" ==> r == Searching(s, Results([]))
    ensures r.answer.LimitError? ==> r.state == s && r.answer.verdict != Allowed
    ensures query != "" && user.Some? && user.value != 0 && tier !in Tiers() ==>
      r == Searching(s, LimitError(UnknownTier(tier)))
    ensures r.state == s || (query != "" && user.Some? && user.value != 0 && FirstAnswer(Instances(), fetch).Some?
                             && r.state == s.(usage := LogUsage(s.usage, user.value, Searches, loggedAt)))
    ensures r.answer.Results? ==> |r.answer.hits| <= MaxResults
  {
    if query == "" then Searching(s, Results([]))
    else
      var signedIn := user.Some? && user.value != 0;
      var verdict := if signedIn then CheckLimit(s.usage, user.value, Searches, tier, checkedAt) else Allowed;
      if verdict != Allowed then Searching(s, LimitError(verdict))
      else match FirstAnswer(Instances(), fetch)
        case None => Searching(s, Results([]))
        case Some(hits) =>
          var shown := if |hits| <= MaxResults then hits else hits[..MaxResults];
          var s' := if signedIn then s.(usage := LogUsage(s.usage, user.value, Searches, loggedAt)) else s;
          Searching(s', Results(shown))
  }
}

=== FILE: store_facts.dfy ===
/** What the `d2d.py` operations promise across calls: the schema's
    guarantees are kept, deletes are scoped, repeated actions are no-ops,
    star counts match the star rows, and the daily quota runs out after
    exactly the tier's limit. */
module StoreFacts {
  import opened Common
  import opened Tables
  import opened Ledger
  import opened Store

  // ------------------------------------------------------ schema guarantees

  lemma SignupPreservesValid(s: Store, email: Option<string>, customer: Option<string>, token: string, hash: string -> Digest)
    requires Valid(s)
    ensures Valid(Signup(s, email, customer, token, hash))
  {
    if email.Some? {
      if HasEmail(s, email.value) {
        SignupKnownValid(s, email.value, customer, token, hash);
      } else {
        SignupNewValid(s, email.value, customer, token, hash);
      }
    }
  }

  lemma SignupKnownValid(s: Store, e: string, customer: Option<string>, token: string, hash: string -> Digest)
    requires Valid(s) && HasEmail(s, e)
    ensures Valid(Signup(s, Some(e), customer, token, hash))
  {
    var r := Signup(s, Some(e), customer, token, hash);
    assert forall i :: i in r.users ==> i in s.users && r.users[i].email == s.users[i].email;
  }

  lemma SignupNewValid(s: Store, e: string, customer: Option<string>, token: string, hash: string -> Digest)
    requires Valid(s) && !HasEmail(s, e)
    ensures Valid(Signup(s, Some(e), customer, token, hash))
  {
    var r := Signup(s, Some(e), customer, token, hash);
    forall i, j | i in r.users && j in r.users && r.users[i].email == r.users[j].email
      ensures i == j
    {
      if i != r.lastUserId && j != r.lastUserId {
        assert s.users[i].email == r.users[i].email && s.users[j].email == r.users[j].email;
      }
    }
  }

  lemma SavePreservesValid(s: Store, user: UserId, title: string, url: string, snippet: string, tier: string,
                           checkedAt: Date, loggedAt: Date)
    requires Valid(s)
    ensures Valid(Save(s, user, title, url, snippet, tier, checkedAt, loggedAt).state)
  {
  }

  lemma RegisterPreservesValid(s: Store, user: UserId, title: string, description: string, ctype: string, tier: string,
                               uuid: Uuid, sha: string -> Digest, utcNow: string, checkedAt: Date, loggedAt: Date)
    requires Valid(s)
    ensures Valid(Register(s, user, title, description, ctype, tier, uuid, sha, utcNow, checkedAt, loggedAt).state)
  {
    var r := Register(s, user, title, description, ctype, tier, uuid, sha, utcNow, checkedAt, loggedAt);
    if r.outcome.Issued? {
      forall k | k in r.state.content
        ensures r.state.content[k].uuid == k
      {
        if k != uuid {
          assert k in s.content;
        }
      }
    }
  }

  lemma DeletesPreserveValid(s: Store, user: UserId, sid: SavedId)
    requires Valid(s)
    ensures Valid(DeleteSaved(s, user, sid))
    ensures Valid(DeleteAll(s, user))
  {
  }

  // ------------------------------------------------------------ bookmarks

  /** Deleting the bookmark a save just stored restores the bookmark table. */
  lemma SaveThenDeleteSaved(s: Store, user: UserId, title: string, url: string, snippet: string, tier: string,
                            checkedAt: Date, loggedAt: Date)
    requires Valid(s)
    requires Save(s, user, title, url, snippet, tier, checkedAt, loggedAt).verdict == Allowed
    ensures var t := Save(s, user, title, url, snippet, tier, checkedAt, loggedAt).state;
      DeleteSaved(t, user, t.lastSavedId).saved == s.saved
  {
    var t := Save(s, user, title, url, snippet, tier, checkedAt, loggedAt).state;
    var d := DeleteSaved(t, user, t.lastSavedId);
    assert d.saved.Keys == s.saved.Keys;
  }

  /** Another user cannot delete a bookmark, and deleting twice is deleting once. */
  lemma DeleteSavedScoped(s: Store, user: UserId, sid: SavedId)
    ensures sid in s.saved && s.saved[sid].userId != user ==> DeleteSaved(s, user, sid) == s
    ensures DeleteSaved(DeleteSaved(s, user, sid), user, sid) == DeleteSaved(s, user, sid)
    ensures forall id :: id in s.saved && s.saved[id].userId != user ==> id in DeleteSaved(s, user, sid).saved
  {
  }

  /** The bookmarks and content a user owns. */
  ghost predicate OwnsNothing(s: Store, user: UserId)
  {
    && user !in s.users
    && (forall id :: id in s.saved ==> s.saved[id].userId != user)
    && (forall k :: k in s.content ==> s.content[k].userId != user)
  }

  /** Everything `other` owns is the same in `s` and `t`. */
  ghost predicate SameFor(s: Store, t: Store, other: UserId)
  {
    && (other in s.users <==> other in t.users)
    && (other in s.users ==> s.users[other] == t.users[other])
    && (forall id :: id in s.saved && s.saved[id].userId == other ==> id in t.saved && t.saved[id] == s.saved[id])
    && (forall id :: id in t.saved && t.saved[id].userId == other ==> id in s.saved && s.saved[id] == t.saved[id])
    && (forall k :: k in s.content && s.content[k].userId == other ==> k in t.content && t.content[k] == s.content[k])
    && (forall k :: k in t.content && t.content[k].userId == other ==> k in s.content && s.content[k] == t.content[k])
  }

  /** `delete_all` erases the user's account, bookmarks and content, leaves
      every other user's data as it was, and is idempotent; the usage rows
      and stars of the deleted user survive. */
  lemma DeleteAllScoped(s: Store, user: UserId, other: UserId)
    requires other != user
    ensures OwnsNothing(DeleteAll(s, user), user)
    ensures SameFor(s, DeleteAll(s, user), other)
    ensures DeleteAll(DeleteAll(s, user), user) == DeleteAll(s, user)
    ensures DeleteAll(s, user).usage == s.usage && DeleteAll(s, user).stars == s.stars
  {
    var t := DeleteAll(s, user);
    assert DeleteAll(t, user).saved == t.saved;
    assert DeleteAll(t, user).content == t.content;
    assert DeleteAll(t, user).users == t.users;
  }

  /** After `delete_all` the user's token no longer logs the user in. */
  lemma DeleteAllLogsOut(s: Store, user: UserId, token: string, hash: string -> Digest)
    ensures Login(DeleteAll(s, user), token, hash) != Some(user)
  {
  }

  // --------------------------------------------------------------- stars

  /** The users who starred `project`. */
  function Starrers(stars: set<Star>, project: ProjectId): set<Star>
  {
    set st | st in stars && st.project == project
  }

  /** Every project's `stars` column counts its star rows. */
  ghost predicate StarsCounted(s: Store)
  {
    forall p :: p in s.projects ==> s.projects[p].stars == |Starrers(s.stars, p)|
  }

  /** Starring is idempotent: a repeat call changes nothing. */
  lemma StarIdempotent(s: Store, user: UserId, project: ProjectId)
    ensures StarProject(StarProject(s, user, project), user, project) == StarProject(s, user, project)
  {
  }

  /** Starring keeps every project's count equal to its number of stars. */
  lemma StarKeepsCount(s: Store, user: UserId, project: ProjectId)
    requires StarsCounted(s)
    ensures StarsCounted(StarProject(s, user, project))
  {
    var st := Star(user, project);
    if st !in s.stars {
      var r := StarProject(s, user, project);
      forall p | p in r.projects
        ensures r.projects[p].stars == |Starrers(r.stars, p)|
      {
        if p == project {
          assert Starrers(r.stars, p) == Starrers(s.stars, p) + {st};
          assert st !in Starrers(s.stars, p);
        } else {
          assert Starrers(r.stars, p) == Starrers(s.stars, p);
        }
      }
    }
  }

  /** `delete_all` touches neither projects nor stars, so the counts stay right. */
  lemma DeleteAllKeepsCount(s: Store, user: UserId)
    requires StarsCounted(s)
    ensures StarsCounted(DeleteAll(s, user))
  {
  }

  // ------------------------------------------------------- feature flags

  /** A flag reads back as last written; without a row it reads as enabled;
      other flags are unaffected; and the last write wins. */
  lemma FlagReadAfterWrite(s: Store, feature: string, cohort: string, enabled: bool, f2: string, c2: string, later: bool)
    ensures IsFeatureEnabled(SetFeatureFlag(s, feature, cohort, enabled), feature, cohort) == enabled
    ensures FlagKey(f2, c2) != FlagKey(feature, cohort) ==>
      IsFeatureEnabled(SetFeatureFlag(s, feature, cohort, enabled), f2, c2) == IsFeatureEnabled(s, f2, c2)
    ensures FlagKey(f2, c2) !in s.flags ==> IsFeatureEnabled(s, f2, c2)
    ensures SetFeatureFlag(SetFeatureFlag(s, feature, cohort, enabled), feature, cohort, later)
            == SetFeatureFlag(s, feature, cohort, later)
  {
  }

  // ----------------------------------------------------------- changelog

  /** Adding a version that exists changes nothing; adding one twice is adding it once. */
  lemma AddVersionIdempotent(s: Store, version: string, features: string, impact: string, now: Timestamp,
                             features2: string, impact2: string, later: Timestamp)
    ensures var t := AddVersion(s, version, features, impact, now);
      && AddVersion(t, version, features2, impact2, later) == t
      && version in t.versions
      && (version in s.versions ==> t.versions[version] == s.versions[version])
  {
  }

  // ---------------------------------------------------------------- auth

  /** Signing up again with a known email replaces the token: the new token
      logs the same account in, the old one no longer logs into that
      account, and no account is added. */
  lemma SignupReplacesToken(s: Store, id: UserId, customer: Option<string>, oldToken: string, token: string, hash: string -> Digest)
    requires Valid(s) && id in s.users && token != ""
    requires s.users[id].tokenHash == hash(oldToken) && hash(oldToken) != hash(token)
    requires forall j :: j in s.users && j != id ==> s.users[j].tokenHash != hash(token)
    ensures var t := Signup(s, Some(s.users[id].email), customer, token, hash);
      && t.users.Keys == s.users.Keys
      && Login(t, token, hash) == Some(id)
      && Login(t, oldToken, hash) != Some(id)
  {
    var e := s.users[id].email;
    assert HasEmail(s, e);
    var t := Signup(s, Some(e), customer, token, hash);
    forall j | j in t.users && j != id
      ensures t.users[j].tokenHash != hash(token)
    {
      assert s.users[j].email != e;
    }
  }

  /** A new email gets an account that its token logs into. */
  lemma SignupThenLogin(s: Store, email: string, customer: Option<string>, token: string, hash: string -> Digest)
    requires Valid(s) && token != "" && !HasEmail(s, email)
    requires forall j :: j in s.users ==> s.users[j].tokenHash != hash(token)
    ensures var t := Signup(s, Some(email), customer, token, hash);
      && Login(t, token, hash) == Some(t.lastUserId)
      && t.users[t.lastUserId].email == email
  {
  }

  // --------------------------------------------------------------- quota

  /** The state after `n` saves of the same bookmark, all on one day. */
  function SaveTimes(s: Store, user: UserId, title: string, url: string, snippet: string, tier: string,
                     at: Date, n: nat): Store
    requires Valid(s)
    ensures Valid(SaveTimes(s, user, title, url, snippet, tier, at, n))
  {
    if n == 0 then s
    else
      var prev := SaveTimes(s, user, title, url, snippet, tier, at, n - 1);
      SavePreservesValid(prev, user, title, url, snippet, tier, at, at);
      Save(prev, user, title, url, snippet, tier, at, at).state
  }

  /** Within the day's limit every save goes through and the day's save
      counter grows by exactly one per save. */
  lemma {:induction false} SavesWithinLimit(s: Store, user: UserId, title: string, url: string, snippet: string,
                                            tier: string, at: Date, n: nat)
    requires Valid(s) && tier in Tiers()
    requires CountOf(s.usage, UsageKey(user, Saves, DayOf(at))) + n <= LimitFor(Tiers()[tier], Saves)
    ensures CountOf(SaveTimes(s, user, title, url, snippet, tier, at, n).usage, UsageKey(user, Saves, DayOf(at)))
            == CountOf(s.usage, UsageKey(user, Saves, DayOf(at))) + n
  {
    if n > 0 {
      SavesWithinLimit(s, user, title, url, snippet, tier, at, n - 1);
    }
  }

  /** From an empty day, the tier's limit of saves succeed and the next one
      is refused with the count and the limit, storing nothing. */
  lemma SaveQuotaExhausted(s: Store, user: UserId, title: string, url: string, snippet: string, tier: string, at: Date)
    requires Valid(s) && tier in Tiers() && LimitFor(Tiers()[tier], Saves) >= 0
    requires CountOf(s.usage, UsageKey(user, Saves, DayOf(at))) == 0
    ensures var limit := LimitFor(Tiers()[tier], Saves);
      var t := SaveTimes(s, user, title, url, snippet, tier, at, limit);
      Save(t, user, title, url, snippet, tier, at, at) == Saving(t, OverLimit(limit, limit))
  {
    var limit := LimitFor(Tiers()[tier], Saves);
    SavesWithinLimit(s, user, title, url, snippet, tier, at, limit);
  }

  /** A refused registration leaves the database alone; an issued one adds
      one row and one to the day's registration counter. */
  lemma RegisterCountsOnce(s: Store, user: UserId, title: string, description: string, ctype: string, tier: string,
                           uuid: Uuid, sha: string -> Digest, utcNow: string, at: Date)
    requires tier in Tiers() && uuid !in s.content
    ensures var r := Register(s, user, title, description, ctype, tier, uuid, sha, utcNow, at, at);
      var key := UsageKey(user, Registrations, DayOf(at));
      && (r.outcome.Issued? <==> CountOf(s.usage, key) < LimitFor(Tiers()[tier], Registrations))
      && (r.outcome.Issued? ==> CountOf(r.state.usage, key) == CountOf(s.usage, key) + 1
                                && |r.state.content.Keys| == |s.content.Keys| + 1)
      && (!r.outcome.Issued? ==> r.state == s)
  {
  }

  /** A signed-in search is refused exactly at the tier's daily limit; once
      through, it is logged only when some instance answered, and it shows
      the head of that answer, at most fifteen hits. */
  lemma SearchGate<T>(s: Store, query: string, user: UserId, tier: string,
                      fetch: string -> Option<seq<T>>, at: Date)
    requires query != "" && user != 0 && tier in Tiers()
    ensures var r := Search(s, query, Some(user), tier, fetch, at, at);
      var count := CountOf(s.usage, UsageKey(user, Searches, DayOf(at)));
      var limit := LimitFor(Tiers()[tier], Searches);
      && (r.answer.LimitError? <==> count >= limit)
      && (r.answer.LimitError? ==> r.answer.verdict == OverLimit(count, limit))
      && (count < limit && FirstAnswer(Instances(), fetch).None? ==> r == Searching(s, Results([])))
      && (count < limit && FirstAnswer(Instances(), fetch).Some? ==>
            var hits := FirstAnswer(Instances(), fetch).value;
            && CountOf(r.state.usage, UsageKey(user, Searches, DayOf(at))) == count + 1
            && r.answer.Results?
            && r.answer.hits <= hits
            && |r.answer.hits| == if |hits| < MaxResults then |hits| else MaxResults)
  {
  }

  /** A signed-out search (no user, or user id 0) never touches the ledger. */
  lemma SearchAnonymous<T>(s: Store, query: string, user: Option<UserId>, tier: string,
                           fetch: string -> Option<seq<T>>, checkedAt: Date, loggedAt: Date)
    requires user.None? || user.value == 0
    ensures Search(s, query, user, tier, fetch, checkedAt, loggedAt).state == s
    ensures Search(s, query, user, tier, fetch, checkedAt, loggedAt).answer.Results?
    ensures var hits := Search(s, query, user, tier, fetch, checkedAt, loggedAt).answer.hits;
      && (query == "" || FirstAnswer(Instances(), fetch).None? ==> hits == [])
      && (query != "" && FirstAnswer(Instances(), fetch).Some? ==>
            var all := FirstAnswer(Instances(), fetch).value;
            hits <= all && |hits| == if |all| < MaxResults then |all| else MaxResults)
  {
  }
}

=== FILE: tables.dfy ===
/** Helpers for tables whose rows carry an SQLite `INTEGER PRIMARY KEY
    AUTOINCREMENT` id. */
module Tables {
  import opened Common

  /** Every id handed out so far lies in `1..last`: AUTOINCREMENT starts at
      1 and never reuses an id. */
  ghost predicate IdsUpTo<V>(m: map<nat, V>, last: nat)
  {
    forall k :: k in m ==> 1 <= k <= last
  }

  /** The row that `fetchone()` returns for a query without `ORDER BY`
      over a table scanned in id order: the lowest id in `lo..hi` whose
      row satisfies `p`, or `None` when no row there does. */
  function FirstKey<V>(m: map<nat, V>, p: V -> bool, lo: nat, hi: nat): (r: Option<nat>)
    ensures r.Some? ==> lo <= r.value <= hi && r.value in m && p(m[r.value])
    ensures r.Some? ==> forall j :: lo <= j < r.value && j in m ==> !p(m[j])
    ensures r.None? ==> forall j :: lo <= j <= hi && j in m ==> !p(m[j])
    decreases hi - lo
  {
    if lo > hi then None
    else if lo in m && p(m[lo]) then Some(lo)
    else FirstKey(m, p, lo + 1, hi)
  }

  /** A `DELETE ... WHERE` over a table: the rows matching `gone` leave,
      the others stay as they were. */
  function DeleteWhere<K, V>(m: map<K, V>, gone: V -> bool): (r: map<K, V>)
    ensures forall k :: k in m ==> (k in r <==> !gone(m[k]))
    ensures forall k :: k in r ==> k in m && r[k] == m[k]
  {
    map k | k in m && !gone(m[k]) :: m[k]
  }
}

=== FILE: text.dfy ===
/** The two pieces of string handling the registry relies on:
    Python's `str.split(",")` / `",".join(...)` for the tag list and
    `pathlib.Path(p).name` for the stored file name. */
module Text {

  const Comma: char := ','

  predicate NoComma(s: string)
  {
    forall i :: 0 <= i < |s| ==> s[i] != Comma
  }

  /** `s.split(",")`: the pieces between commas, in order. Like Python it
      yields one (empty) piece for the empty string and an empty piece
      around every doubled, leading or trailing comma. */
  function Split(s: string): (pieces: seq<string>)
    ensures |pieces| >= 1
    ensures forall i :: 0 <= i < |pieces| ==> NoComma(pieces[i])
    ensures |pieces| == 1 + CommaCount(s)
    decreases |s|
  {
    if s == [] then [""]
    else
      var rest := Split(s[1..]);
      if s[0] == Comma then [""] + rest
      else [[s[0]] + rest[0]] + rest[1..]
  }

  function CommaCount(s: string): nat
    decreases |s|
  {
    if s == [] then 0 else (if s[0] == Comma then 1 else 0) + CommaCount(s[1..])
  }

  /** `",".join(pieces)`. */
  function Join(pieces: seq<string>): string
    requires |pieces| >= 1
  {
    if |pieces| == 1 then pieces[0] else pieces[0] + [Comma] + Join(pieces[1..])
  }

  /** Splitting and re-joining gives back the original tag string. */
  lemma {:induction false} JoinSplit(s: string)
    ensures Join(Split(s)) == s
    decreases |s|
  {
    if s != [] {
      var rest := Split(s[1..]);
      JoinSplit(s[1..]);
      if s[0] == Comma {
        assert Split(s) == [""] + rest;
        assert (([""] + rest)[1..]) == rest;
        assert [s[0]] + s[1..] == s;
      } else {
        var first := [s[0]] + rest[0];
        assert Split(s) == [first] + rest[1..];
        if |rest| == 1 {
          assert Join(rest) == rest[0];
        } else {
          assert Join(rest) == rest[0] + [Comma] + Join(rest[1..]);
          assert ([first] + rest[1..])[1..] == rest[1..];
        }
        assert [s[0]] + s[1..] == s;
      }
    }
  }

  /** Splitting a comma-free prefix glued onto `t` extends the first piece of `t`. */
  lemma {:induction false} SplitPrefix(p: string, t: string)
    requires NoComma(p)
    ensures Split(p + t) == [p + Split(t)[0]] + Split(t)[1..]
    decreases |p|
  {
    if p != [] {
      assert (p + t)[1..] == p[1..] + t;
      assert (p + t)[0] == p[0];
      SplitPrefix(p[1..], t);
      assert [p[0]] + (p[1..] + Split(t)[0]) == p + Split(t)[0];
    } else {
      var pieces := Split(t);
      assert p + t == t && p + pieces[0] == pieces[0];
      assert [pieces[0]] + pieces[1..] == pieces;
    }
  }

  /** Joining comma-free pieces and splitting again gives back the pieces. */
  lemma {:induction false} SplitJoin(pieces: seq<string>)
    requires |pieces| >= 1
    requires forall i :: 0 <= i < |pieces| ==> NoComma(pieces[i])
    ensures Split(Join(pieces)) == pieces
    decreases |pieces|
  {
    var p := pieces[0];
    if |pieces| == 1 {
      SplitPrefix(p, "");
      assert p + "" == p;
    } else {
      var rest := pieces[1..];
      SplitJoin(rest);
      var t := [Comma] + Join(rest);
      assert Split(t) == [""] + Split(Join(rest));
      SplitPrefix(p, t);
      assert p + [Comma] + Join(rest) == p + t;
      assert p + "" == p;
      assert [p] + rest == pieces;
    }
  }

  /** `Path(p).name`: the text after the last `/`. */
  function BaseName(path: string): (name: string)
    ensures |name| <= |path| && path[|path| - |name|..] == name
    ensures forall i :: 0 <= i < |name| ==> name[i] != '/'
    ensures |name| < |path| ==> path[|path| - |name| - 1] == '/'
  {
    if path == [] || path[|path| - 1] == '/' then []
    else BaseName(path[..|path| - 1]) + [path[|path| - 1]]
  }
}
